=== FILE: README.md ===
# Doom-type quiz: a Dafny model of its core

The application is a timed personality quiz built with Next.js.
- A language model writes five questions.
- The player answers them against a 60-second clock.
- The answers are handed through session storage to a loading screen.
- The loading screen asks a second route to classify the player into a "doom type".
- The classification has a rarity tier and a percentile, and the result screen presents it.
- A middleware picks the interface language and a root layout renders it.

This project restates that core as pure Dafny functions over immutable data and proves what its behaviour promises.

| file | module | what it models |
|---|---|---|
| `wrappers.dfy` | `Wrappers` | `Option`, for `null`, a thrown parse, an absent key |
| `js_text.dfy` | `JsText` | JavaScript string primitives the core uses: `indexOf`, `lastIndexOf`, `substring` (clamping and argument swap), `trim`, `\s`, `startsWith`, `toString`, `padStart` |
| `domain.dfy` | `Domain` | questions, history entries, the result record, the routes |
| `quiz.dfy` | `Quiz` | the quiz screen as a state machine (questions loaded, start, tick, select) |
| `handoff.dfy` | `Handoff` | session storage; the loading screen's effect, its `Promise.all` join and catch; the result screen's single read |
| `questions_route.dfy` | `QuestionsRoute` | `POST /api/generate-questions`: the JSON slice, the parse and the canned questions |
| `result_route.dfy` | `ResultRoute` | `POST /api/generate-result`: the transcript, the code-fence strip, the rarity rule, the canned result |
| `middleware.dfy` | `Middleware` | locale detection, the `x-locale` header, the cookie, the path matcher |
| `i18n.dfy` | `I18n` | the next-intl request configuration's locale fallback |
| `layout.dfy` | `Layout` | metadata and the `<html lang>` chosen from the cookie; message catalog fallback |
| `result_card.dfy` | `ResultCard` | rarity colour and trait chips of the result card |
| `result_view.dfy` | `ResultView` | theme, border, the "top X%" figure and the download file name on the result screen |
| `session.dfy` | `Session` | properties that cross screens and modules |

Foreign code becomes function parameters:
- `JSON.stringify`/`JSON.parse` are a `Codec`: an encode, a decode that may fail, and a test for text that parses to a falsy value (null, false, 0, ""). `Handoff.Faithful` states what JSON guarantees of its own output.
- The language model call is `generate` (None when it throws).
- The locale negotiation library is the value it returned, `negotiated`.
- A message catalog import is `load`.
- Timers are events: `Tick` for the one-second interval and `MinWaitElapsed` for the 7000 ms wait.

The code is followed where the prose description disagrees with it:
- Both routes always use the single Korean prompt in the source. The questions route takes no request argument at all, so the locale the quiz screen sends reaches no prompt.
- The quiz screen plays whatever body the questions route sends, even with status 500. The loading screen treats every non-OK status as a failure, so the result route's canned answer is never shown.

## Model

| member | source | states |
|---|---|---|
| JsText.IndexOf | app/api/generate-questions/route.ts:47 | -1 exactly when the character is absent; otherwise its first position |
| JsText.LastIndexOf | app/api/generate-questions/route.ts:47 | -1 exactly when the character is absent; otherwise its last position |
| JsText.Substring | app/api/generate-questions/route.ts:47 | always a contiguous piece of the text; in-range bounds give the slice between them in either order; a negative bound acts as 0 and one past the end as the length, alone or together with the other; both at or below 0, or both at or past the end, give "" |
| JsText.SubstringSymmetric | app/api/generate-questions/route.ts:47 | swapping the two arguments never changes the result |
| JsText.TrimStart | app/api/generate-result/route.ts:75 | a suffix of the input, not starting with white space, and everything cut off is white space |
| JsText.TrimEnd | app/api/generate-result/route.ts:75 | a prefix of the input, not ending with white space, and everything cut off is white space |
| JsText.Trim | app/api/generate-result/route.ts:75 | the result is the input with only white space removed, and only from its two ends; it neither starts nor ends with white space |
| JsText.TrimIdempotent | app/api/generate-result/route.ts:75 | trimming twice equals trimming once |
| JsText.TrimKeepsTrimmed | app/api/generate-result/route.ts:75 | text without white space at its ends passes through trim unchanged |
| JsText.ReplaceSpaces | app/result/page.tsx:66 | same length; each white-space character becomes the replacement and every other character is kept |
| JsText.ReplaceSpacesClears | app/result/page.tsx:66 | with a visible replacement, no white space remains, and the result is empty only for empty input |
| JsText.NatToString | app/result/page.tsx:64 | decimal digits without a leading zero; one digit below 10, four digits for four-digit years |
| JsText.NatToStringRoundTrip | app/result/page.tsx:64 | reading the digits back gives the number |
| JsText.PadStart | app/test/page.tsx:138 | the input stays as the suffix, the fill goes in front, and the length is max(length, target) |
| JsText.TwoDigitsRoundTrip | app/test/page.tsx:138 | below 100 the padded form has exactly two digits that read back as the number |
| Quiz.TickCountdown | app/test/page.tsx:45 | one less than a positive count, and zero stays zero |
| Quiz.TicksFloor | app/test/page.tsx:42-46 | k ticks of a running test leave max(c - k, 0) on the clock and the history as it was; before the start or after navigating, ticks change nothing |
| Quiz.Next | app/test/page.tsx:38-110 | after navigation nothing changes; the clock never goes up; the history only grows, by at most one entry; once started, the test stays started on the same questions |
| Quiz.Run | app/test/page.tsx:38-110 | over any event sequence the clock never goes up, the history only grows, by at most one entry per event, and a started test keeps its questions |
| Quiz.InitValid | app/test/page.tsx:16-22 | the mount state (no questions, not started, clock at 60, empty history) satisfies the screen invariant |
| Quiz.NextValid | app/test/page.tsx:38-110 | every transition keeps the invariant: the history matches the questions in order, the clock is in range, and the clock shows zero while running exactly when /fail is reached |
| Quiz.RunValid | app/test/page.tsx:38-110 | every event sequence keeps the invariant |
| Quiz.ExitIsFinal | app/test/page.tsx:65-78 | after navigation to /fail or /loading, no event changes the state |
| Quiz.StartNeedsQuestions | app/test/page.tsx:120-122 | the test starts only through Start with a non-empty question list, and the clock does not tick before that; when the button is enabled, Start begins the test and the alarm and changes nothing else, and otherwise changes nothing |
| Quiz.TickStep | app/test/page.tsx:65-78 | a running tick lowers the clock by one; /fail is reached exactly on the tick from 1 to 0 |
| Quiz.SelectStep | app/test/page.tsx:91-110 | an answer appends exactly one entry and keeps the clock; it either advances the step or completes with the whole history saved |
| Quiz.SelectOnlyRendered | app/test/page.tsx:147-150 | an option not rendered for the current question changes nothing |
| Quiz.Answers | app/test/page.tsx:94-99 | one entry per question, pairing each question and its options with the option chosen for it (the entry `Quiz.Answer` builds) |
| Quiz.AnswerRun | app/test/page.tsx:91-110 | k rendered answers in a row add exactly those k entries and keep the clock; the screen completes exactly on the last question |
| Quiz.CompleteSession | app/test/page.tsx:102-107 | from a fresh start, one rendered answer per question reaches /loading with exactly those answers saved |
| Quiz.ClockRunsOut | app/test/page.tsx:65-78 | left alone, a running test reaches /fail with the alarm stopped and the history unsaved, after exactly as many ticks as the clock shows |
| Quiz.ClockTextExact | app/test/page.tsx:138 | on every reachable state the display `Quiz.ClockText` is `00:` plus two digits that read back as the remaining seconds |
| Handoff.GetItem | app/loading/page.tsx:77 | the stored string exactly when the key is present, otherwise null |
| Handoff.SaveHistory | app/test/page.tsx:105-107 | on completion the stored history decodes as the saved one; otherwise storage is untouched; no other key changes |
| Handoff.LoadingStep | app/loading/page.tsx:71-118 | a settled page ignores every event; the effect marks the page as run; storage only loses testHistory (never gains or changes it) or gains or rewrites testResult (never loses it), and writes testResult only on success, with the encoded reply; only the effect issues the request or removes the history |
| Handoff.EffectOnce | app/loading/page.tsx:71-75 | the effect body runs at most once per mount |
| Handoff.MissingHistoryRedirects | app/loading/page.tsx:77-81 | a missing or empty history goes to / with no request, storage untouched and no messages rotating |
| Handoff.HistoryReadOnce | app/loading/page.tsx:77-95 | the stored history is removed before the request, and the request carries what it parses to |
| Handoff.NonOkRejects | app/loading/page.tsx:96-99 | a non-OK status rejects: alert, back to /, messages stopped, nothing stored, even when the body is a valid result |
| Handoff.RejectDoesNotWait | app/loading/page.tsx:103-112 | a failed request settles the join at once, without the 7-second wait |
| Handoff.SuccessNeedsBoth | app/loading/page.tsx:101-107 | any step into success has an OK parsed reply and the elapsed wait, one before the other |
| Handoff.JoinEitherOrder | app/loading/page.tsx:101-115 | reply then wait, or wait then reply, give the same page: result stored, /result reached, messages stopped |
| Handoff.SuccessNeedsBothRun | app/loading/page.tsx:101-107 | over any event run from an open join, success needs the wait and an OK parsable reply |
| Handoff.SettledStays | app/loading/page.tsx:103-115 | once the effect has run and the join has settled, later events change nothing |
| Handoff.LoadingStepValid | app/loading/page.tsx:73-118 | every step keeps the invariant: the history is gone before any request, the interval runs exactly while the join is open, and the alert appears exactly on failure |
| Handoff.LoadingInitValid | app/loading/page.tsx:71-75 | a freshly mounted loading page satisfies the invariant, whatever storage holds |
| Handoff.LoadingRunValid | app/loading/page.tsx:73-118 | every event sequence keeps the invariant, so it holds of every page reachable from a mount |
| Handoff.LoadResult | app/result/page.tsx:35-85 | reads testResult once and removes it before parsing; shows it exactly when it parses; stays on the spinner with no navigation exactly when it parses to a falsy value; otherwise goes to /; touches no other key |
| Handoff.SecondVisitRedirects | app/result/page.tsx:40-55 | a second visit after a load finds nothing and goes to / |
| Handoff.FalsyResultSpins | app/result/page.tsx:42-47 | a stored value that parses to null, false, 0 or "" is consumed, nothing is shown and nothing navigates, for good |
| QuestionsRoute.JsonSlice | app/api/generate-questions/route.ts:47 | a contiguous piece of the text; from the first `[` through the last `]` when they come in that order; never longer than one past the first `[` when there is no `]` |
| QuestionsRoute.SliceIsInfix | app/api/generate-questions/route.ts:47 | the slice is always a contiguous piece of the model's text |
| QuestionsRoute.SliceBracketed | app/api/generate-questions/route.ts:47 | with the first `[` before the last `]`, the slice runs from one to the other inclusive |
| QuestionsRoute.SliceWithoutClose | app/api/generate-questions/route.ts:47 | without any `]`, the slice is the text before the first `[`, and the empty string if there is no `[` either |
| QuestionsRoute.SliceWithoutOpen | app/api/generate-questions/route.ts:47 | with a `]` but no `[`, the start acts as 0 and the slice is the text up to and including the last `]` |
| QuestionsRoute.SliceReversed | app/api/generate-questions/route.ts:47 | with the last `]` before the first `[`, the slice is what lies strictly between them |
| QuestionsRoute.Post | app/api/generate-questions/route.ts:44-64 | status 500 with the canned questions exactly when the model call or the parse fails; otherwise 200 with the parsed list |
| QuestionsRoute.FallbackShape | app/api/generate-questions/route.ts:53-63 | two canned questions of three options each |
| QuestionsRoute.ParsedListUnchecked | app/api/generate-questions/route.ts:49-50 | a one-question, one-option list that parses is sent with 200, far from the prompt's shape |
| QuestionsRoute.AnyListForwarded | app/api/generate-questions/route.ts:49-50 | every list the parser yields is sent with 200 as it is: no field is checked |
| ResultRoute.Block | app/api/generate-result/route.ts:13 | an entry's block starts with `Q` followed by the decimal form of its 1-based position, contains the question and ends with the chosen option |
| ResultRoute.BlockNumbered | app/api/generate-result/route.ts:13 | the number after `Q` reads back as the entry's 1-based position |
| ResultRoute.Blocks | app/api/generate-result/route.ts:12-13 | one block per entry, the i-th being entry i's block |
| ResultRoute.Join | app/api/generate-result/route.ts:14 | no parts give ""; otherwise the length is the parts' total plus one separator per gap, the first part opens the result and the last closes it |
| ResultRoute.Transcript | app/api/generate-result/route.ts:12-14 | empty exactly for an empty history, otherwise opening with the block of question 1 |
| ResultRoute.TranscriptSmall | app/api/generate-result/route.ts:12-14 | an empty history renders as ""; one entry renders as a single Q1 block |
| ResultRoute.TranscriptAppend | app/api/generate-result/route.ts:12-14 | appending an entry appends a blank line and its block, numbered next |
| ResultRoute.TranscriptIgnoresOptions | app/api/generate-result/route.ts:13 | histories that agree on questions and choices give the same transcript whatever their option lists |
| ResultRoute.StripFences | app/api/generate-result/route.ts:75 | never longer than the input; what it removes and keeps is stated by `NoFenceLeft`, `StripPlainPrefix`, `BareFenceRemoved`, `JsonFenceRemoved`, `ShortTicksKept` and `StripWrapped` |
| ResultRoute.Clean | app/api/generate-result/route.ts:75 | the stripped text with white space removed from both ends and only there (as `JsText.Trim`), no longer than the raw text |
| ResultRoute.NoFenceLeft | app/api/generate-result/route.ts:75 | no triple backtick remains after the fence strip |
| ResultRoute.StripPlainPrefix | app/api/generate-result/route.ts:75 | text without backticks passes through the strip, in front of whatever follows |
| ResultRoute.StripWrapped | app/api/generate-result/route.ts:75 | a reply wrapped in a json code fence comes out as its body |
| ResultRoute.BareFenceRemoved | app/api/generate-result/route.ts:75 | a bare ``` (not followed by `json`) after backtick-free text is removed, and the text after it is stripped in turn and kept |
| ResultRoute.JsonFenceRemoved | app/api/generate-result/route.ts:75 | a ```json after backtick-free text is removed as one match, and the text after it is stripped in turn and kept |
| ResultRoute.ShortTicksKept | app/api/generate-result/route.ts:75 | one or two backticks not followed by a third are kept |
| ResultRoute.BareFenceExample | app/api/generate-result/route.ts:75 | a reply fenced without the json tag keeps the text between the fences |
| ResultRoute.CleanPassesThrough | app/api/generate-result/route.ts:75 | text with no backtick and no white space at its ends reaches the parse unchanged |
| ResultRoute.RarityOf | app/api/generate-result/route.ts:26-30 | each tier holds exactly on its percentile band: above 40, (15, 40], (5, 15], at most 5 |
| ResultRoute.ParseRarity | app/api/generate-result/route.ts:26-30 | only the four tier names read back, each as the tier it names |
| ResultRoute.ParseName | app/api/generate-result/route.ts:26-30 | every tier's name reads back as that tier |
| ResultRoute.RarerBelow | app/api/generate-result/route.ts:26-30 | a lower percentile never gets a more common tier |
| ResultRoute.ExamplesFollowRule | app/api/generate-result/route.ts:40-66 | the prompt's three worked examples obey its rule |
| ResultRoute.ProseRangesDisagreeAtEdges | app/api/generate-result/route.ts:23-30 | the rule gives Rare at 40 and Legendary at 5, where the prose puts them in Common and outside Legendary |
| ResultRoute.Post | app/api/generate-result/route.ts:9-91 | no canned answer when the body cannot be read; otherwise the parsed result exactly when the model call and the parse succeed, else the canned one |
| ResultRoute.FallbackFollowsRule | app/api/generate-result/route.ts:81-90 | the canned result obeys the rarity rule and goes out with status 500 |
| ResultRoute.RarityUnchecked | app/api/generate-result/route.ts:76-77 | a parsed result breaking the rarity rule is still sent with status 200 |
| ResultRoute.AnyResultForwarded | app/api/generate-result/route.ts:76-77 | every record the parser yields is sent with 200 as it is: no field is checked |
| Middleware.DetectLocale | middleware.ts:12-24 | a supported cookie wins and the matcher is not consulted; otherwise the matcher's answer, or a throw when the matcher throws; any answer is a supported locale |
| Middleware.Handle | middleware.ts:26-41 | fails exactly when locale detection throws; otherwise x-locale and the cookie both carry the detected locale, and every other request header is kept |
| Middleware.LocaleSticks | middleware.ts:13-38 | the cookie one response writes decides the next request, whatever its Accept-Language, even one that would make the matcher throw |
| Middleware.UnmatchedFirstVisitFails | middleware.ts:12-27 | without a supported cookie, a request whose preferences make the matcher throw is not served |
| Middleware.Processes | middleware.ts:43-45 | whether the matcher lets a path through; stated by `ProcessesExactly`, `SkipsPrefixes`, `MatcherPassesPages` and `MatcherSkipsOthers` |
| Middleware.ProcessesExactly | middleware.ts:43-45 | a path with a leading slash and no line terminator passes exactly when it starts with none of /api, /_next and /favicon, any one character, ico |
| Middleware.SkipsPrefixes | middleware.ts:43-45 | paths starting with /api or /_next never reach the middleware |
| Middleware.MatcherPassesPages | middleware.ts:43-45 | the application's pages pass the matcher |
| Middleware.MatcherSkipsOthers | middleware.ts:43-45 | the API, assets and the favicon are skipped, and so are /apiary and /favicon-ico |
| I18n.SafeLocale | i18n.ts:11-12 | a listed locale is kept; anything else, undefined included, becomes en |
| I18n.SafeLocaleIdempotent | i18n.ts:12 | applying the fallback twice is applying it once |
| I18n.ChineseCodes | i18n.ts:4-12 | zh becomes en; zh-CN is kept |
| I18n.AlignedSafeLocale | i18n.ts:4-12 | the same fallback over a list that spells Chinese as the middleware does |
| Layout.CookieLocale | app/layout.tsx:31 | the cookie value when non-empty, otherwise en |
| Layout.MetaFor | app/layout.tsx:33 | the locale's entry when one exists, otherwise the English one |
| Layout.GenerateMetadata | app/layout.tsx:29-52 | title, description and site name come from the cookie locale's entry, or the English one when there is none; title and description agree across page, Open Graph and Twitter; og:locale is the raw cookie locale; the URL, type and card are fixed |
| Layout.UnknownLocaleMetadata | app/layout.tsx:31-42 | an unknown cookie locale gets the English title, description and site name but still reports itself as og:locale |
| Layout.KnownLocaleMetadata | app/layout.tsx:29-52 | a known cookie locale gets its own title, description and site name everywhere, and reports itself as og:locale |
| Layout.GetMessages | app/layout.tsx:19-26 | the requested catalog, or the English one when that import fails |
| Layout.RootLayout | app/layout.tsx:55-73 | lang and the provider's locale are both the cookie locale, with its catalog |
| Layout.NoCookieIsEnglish | app/layout.tsx:61 | a missing or empty cookie renders English with the English catalog |
| ResultCard.ColorClass | components/ResultCard.tsx:17-32 | a known tier gets its own colour; any other string gets Common's |
| ResultCard.ColorsDistinct | components/ResultCard.tsx:17-22 | no two tiers share a colour |
| ResultCard.Chips | components/ResultCard.tsx:53-62 | the badge first, then one `#tag` per tag in list order |
| ResultCard.ChipsKeepTags | components/ResultCard.tsx:57-61 | dropping the `#` from the tag chips gives back the tags |
| ResultCard.Render | components/ResultCard.tsx:29-66 | the label is the raw rarity used as a translation key, coloured by its tier or as Common when unknown; the heading is the type; the badge chip comes first, then one `#tag` chip per tag |
| ResultView.ThemeClass | app/result/page.tsx:21-26 | a known tier gets its own theme; any other string gets Common's |
| ResultView.RarityTablesShareKeys | app/result/page.tsx:21-26 | the page themes and the card colours are keyed by the same four tiers |
| ResultView.BorderClass | app/result/page.tsx:93 | the glowing border exactly for Legendary |
| ResultView.TopFigure | app/result/page.tsx:103 | a percentile in 1..99 gives a figure in 1..99; percentiles of 5 or less read as top 95% or more |
| ResultView.TopFigureInvolution | app/result/page.tsx:103 | the framing loses nothing: applied twice it gives back the percentile |
| ResultView.TimestampRoundTrip | app/result/page.tsx:63-64 | for four-digit years `ResultView.Timestamp` is eight digits that read back as the year, the 1-based month and the day |
| ResultView.NameLabel | app/result/page.tsx:66 | never empty and free of white space; an empty type gives the default label; any other type keeps its length, white space becoming `_` and every other character kept |
| ResultView.DownloadNameShape | app/result/page.tsx:66 | `ResultView.DownloadName` is the prefix, the label, a dash, the timestamp and `.png`; the label has no white space; an empty type gives the default label; otherwise the type keeps its length |
| ResultView.Render | app/result/page.tsx:87-103 | the theme is the tier's, or Common's when unknown; the glowing border exactly for Legendary; the top figure stays within 1..99 and gives the percentile back; the card is the result card |
| Session.HistoryReachesRequest | app/loading/page.tsx:77-95 | a completed quiz's saved history is read once, removed and sent exactly as answered |
| Session.ResultReachesScreen | app/loading/page.tsx:103-107 | the route's parsed result is what the result screen shows, and afterwards it is gone from storage |
| Session.ResultFallbackNeverShown | app/loading/page.tsx:96-99 | the result route's canned answer is rejected by the loading screen and never stored |
| Session.QuestionFallbackIsPlayed | app/test/page.tsx:26-34 | the canned questions, sent with 500, are still played and two answers finish the quiz |
| Session.TimeoutLeavesNothing | app/test/page.tsx:65-78 | running out of time stores no history, and a later loading screen goes straight back to / |
| Session.RareResultView | app/result/page.tsx:87-103 | a Rare result at 25 obeys the rule and is framed as top 75% with the Rare theme |
| Session.ChineseLostInI18n | i18n.ts:4-12 | the two lists disagree: the middleware can settle on zh, and the i18n fallback maps zh to en |
| Session.AlignedKeepsResolvedLocale | i18n.ts:4-12 | with aligned lists, every locale the middleware settles on survives the i18n fallback |
| Session.ResolvedLocaleRendered | app/layout.tsx:29-65 | every locale the middleware settles on has a metadata entry and becomes the page language, when the layout reads the cookie the middleware wrote on the same request |

## Left out

- Sound and animation (alarm audio, shake pulse, fades, the 100 ms reveal): they are effects with no state beyond `alarmPlaying`. The model keeps that the alarm starts on Start and stops on timeout. As in the code, it is not stopped when the quiz completes.
- The 300 ms delay inside the option handler is modelled as atomic. Two clicks inside that window would both read the same step and history through stale closures. Timer interleavings are not modelled.
- A question fetch that resolves after the test has started (a locale change mid-test) is ignored by `Quiz.Next` rather than replacing the questions under a running step.
- Real time: the countdown interval and the 7000 ms wait are events. Nothing bounds how many ticks fall between other events.
- The loading messages (random choice, 2 s rotation) and ad scripts: only whether the interval is running is kept.
- JSON, the Gemini client, the locale matcher and the message imports are function parameters. Their internals are out of scope.
- Image capture, sharing and the download click on the result screen: only the file name they would use is modelled. A result without a `type` field would make the share handler throw; the modelled record always has one.
- Years below 1000: `ResultView.TimestampRoundTrip` covers four-digit years only, because the code does not pad the year.
- Object lookups such as `rarityStyles[x]`, `rarityColor[x]` and `localizedMetadata[x]` are plain maps. Inherited keys such as `constructor` are not modelled.
- Header names are stored lower-case. Case-insensitive header matching is not modelled.
- `Middleware.Processes` models the matcher as the regular expression against the whole path. How Next.js compiles matchers and handles data routes is not modelled.
- The prompt texts beyond the rarity rule and its examples, the model name and the translated strings are left out. `ResultRoute.Post` and `QuestionsRoute.Post` take the model's output as a parameter. `ResultRoute.Post` passes only the transcript and not the whole prompt.
- The start, fail and home pages, the Next.js configuration and the localized metadata texts are not part of this model. Only the metadata table's keys are used.
- Middleware.DetectLocale: the language negotiation and the locale matcher are abstracted as one parameter: a supported locale when the matcher answers, None when it throws. Which Accept-Language values make it throw is taken from the published behaviour of the two libraries, which are not part of this model. A request with no Accept-Language header gives the preference list `*`, and the matcher's canonicalisation rejects `*` with a RangeError. So a first visit from a client that sends no Accept-Language and no locale cookie (curl, many bots) makes the middleware throw (middleware.ts:19-22). `Middleware.UnmatchedFirstVisitFails` states that outcome; the model does not decide which header values lead to it.
- Layout.GenerateMetadata: assumes the metadata table has exactly the twenty modelled keys. The texts are parameters.
- QuestionsRoute.Post: the parse goes straight to a list of typed questions, so parsed JSON of any other shape (an object, a list of strings, a question without `options`) is modelled as a parse failure with status 500. The source sends such a value with status 200, because it checks no field; `QuestionsRoute.AnyListForwarded` states this only for values of the typed shape.
- ResultRoute.Post: the parse goes straight to a typed record, so parsed JSON without `type`, `tags` or `percentile`, or with a fractional or string `percentile`, is modelled as a parse failure and the canned result. The source sends such a value with status 200; `ResultRoute.AnyResultForwarded` states the unchecked forwarding only for values of the typed shape.
- Handoff.LoadingStep: the reply body decodes only to a typed record, so an OK body of the wrong shape is modelled as a rejection. The source stores any OK body that parses as JSON under testResult, and the result screen then throws at `result.tags.map` (components/ResultCard.tsx:57) when `tags` is missing; that crash is not modelled. An OK body that parses to a falsy value is stored by the source as well and leaves the result screen on its spinner; the model rejects it, and `Handoff.FalsyResultSpins` states the result screen's side.
- Handoff.HistoryReadOnce: the stored history decodes only to a typed list, and any text that does not is modelled as `Crashed`: JSON.parse throws outside any handler (app/loading/page.tsx:90), the interval keeps running, no request is made and there is no retry. That is right for text that is not JSON. Valid JSON of another shape, such as `{}`, does parse in the source: it is sent, the route fails at `history.map` (app/api/generate-result/route.ts:12-14) and answers 500, and the page alerts and goes to / (app/loading/page.tsx:97, 108-111). The model does not follow that path.
- Handoff.LoadResult: a stored value that parses to a truthy value of the wrong shape (an object without `tags`, say) is modelled as going to /. The source sets it as the result and renders it, and the result card then throws (components/ResultCard.tsx:57). The falsy case (null, false, 0, "") is modelled: the screen stays on its spinner.
- Quiz.ExitIsFinal: treats `router.push` as instant, so nothing happens after navigation. In the source the page stays mounted until the next route renders: its interval keeps ticking, and the last question's options stay clickable, because the fade hides them without disabling them (app/test/page.tsx:92, 142). A click in that window appends an extra entry and rewrites testHistory (app/test/page.tsx:94-107), and a tick reaching 0 after completion still pushes /fail with testHistory already written (app/test/page.tsx:65-77).
- Session.ChineseLostInI18n: assumes the locale next-intl passes to the request configuration is the one the middleware settled on. Nothing in the modelled files passes it: the layout feeds the provider from the cookie (app/layout.tsx:61-67), and the request configuration returns no messages (i18n.ts:16). The lemma states only the list mismatch and the fallback of `zh`.

## Findings

| source | as written | input that shows it | evidently intended | confidence | as-written member | corrected member |
|---|---|---|---|---|---|---|
| i18n.ts:4-12 | the list spells Chinese `zh-CN` (i18n.ts:5), while middleware.ts:6 and the metadata table use `zh`; the fallback maps `zh` to `en` | a cookie `locale=zh` is kept by the middleware, and `zh` given to the request configuration comes back as `en` | one spelling of Chinese in both lists | low (whether the middleware's locale ever reaches the request configuration is outside the modelled files); not executed | Session.ChineseLostInI18n | Session.AlignedKeepsResolvedLocale |

=== FILE: domain.dfy ===
/** The records the screens and the API routes exchange. */
module Domain {

  /** One quiz question with its ordered answer options. */
  datatype Question = Question(question: string, options: seq<string>)

  /** One answered question: the question as shown plus the option chosen. */
  datatype Entry = Entry(question: string, options: seq<string>, selected: string)

  /** The result record the result route produces and the result screen shows.
      `typeName` is the record's `type` field; `rarity` is a free string
      because nothing between the language model and the screen checks it. */
  datatype Payload = Payload(
    typeName: string,
    summary: string,
    advice: string,
    quote: string,
    badge: string,
    rarity: string,
    tags: seq<string>,
    percentile: int)

  /** The screens a page navigates to with router.push. */
  datatype Route = Home | Loading | ResultScreen | Fail {
    function Path(): string {
      match this
      case Home => "/"
      case Loading => "/loading"
      case ResultScreen => "/result"
      case Fail => "/fail"
    }
  }
}

=== FILE: handoff.dfy ===
/** The hand-off between screens through session storage: the quiz writes
    testHistory, the loading screen (app/loading/page.tsx) reads it once, asks
    the result route, waits at least the minimum time and writes testResult,
    and the result screen (app/result/page.tsx) reads that once. Time is
    replaced by events; JSON is a record of functions. */
module Handoff {
  import opened Wrappers
  import opened Domain
  import Quiz

  /** sessionStorage: one string value per key. */
  type Storage = map<string, string>

  const HistoryKey: string := "testHistory"
  const ResultKey: string := "testResult"

  /** JSON.stringify and JSON.parse at one value type. `decode` is None when
      the text does not parse to a value of that type; `parsesFalsy` holds of
      text that JSON.parse turns into null, false, 0 or "". */
  datatype Codec<!T> = Codec(encode: T -> string, decode: string -> Option<T>,
                             parsesFalsy: string -> bool)

  /** What JSON guarantees of its own output: it parses back to the same
      value, and it is never the empty string. */
  ghost predicate Faithful<T(!new)>(c: Codec<T>) {
    forall x :: c.decode(c.encode(x)) == Some(x) && c.encode(x) != ""
  }

  /** The two JSON value types the screens exchange. */
  datatype Json = Json(history: Codec<seq<Entry>>, result: Codec<Payload>)

  /** sessionStorage.getItem: the stored string or null. */
  function GetItem(st: Storage, key: string): (r: Option<string>)
    ensures r.Some? <==> key in st
    ensures r.Some? ==> r.value == st[key]
  {
    if key in st then Some(st[key]) else None
  }

  /** JavaScript truthiness of a getItem result: null and "" are both falsy. */
  predicate Present(v: Option<string>) {
    v.Some? && v.value != ""
  }

  /** What the quiz screen leaves in storage when it navigates away: on
      completion, the history under testHistory; on failure, nothing. */
  function SaveHistory(st: Storage, c: Codec<seq<Entry>>, exit: Quiz.Exit): (r: Storage)
    ensures exit.ToLoading? ==> HistoryKey in r && c.decode(r[HistoryKey]) == c.decode(c.encode(exit.saved))
    ensures !exit.ToLoading? ==> r == st
    ensures r - {HistoryKey} == st - {HistoryKey}
  {
    if exit.ToLoading? then st[HistoryKey := c.encode(exit.saved)] else st
  }

  // ---------------------------------------------------------------- loading

  /** Where the loading effect stands. `Crashed` is a stored history that does
      not parse: JSON.parse throws outside any handler, so no request is made. */
  datatype Phase = Fresh | Redirected | Crashed | Waiting | Succeeded | Failed

  /** The API half of the join: still pending, or resolved with parsed data. */
  datatype Api = InFlight | Answered(data: Payload)

  datatype LoadingPage = LoadingPage(
    hasRun: bool,                    // the ref that keeps the effect to one run
    storage: Storage,
    phase: Phase,
    request: Option<seq<Entry>>,     // the body {history} sent to the result route
    api: Api,
    waited: bool,                    // the minimum-wait timer has fired
    rotating: bool,                  // the message interval is active
    alerted: bool,                   // the error alert was shown
    nav: Option<Route>)

  datatype LoadingEvent =
    | Effect                          // the mount effect runs
    | Reply(status: int, body: string) // the result route answered
    | NetworkError                    // fetch rejected
    | MinWaitElapsed                  // the 7000 ms timer fired

  const MinWaitMillis: nat := 7000

  function MountLoading(st: Storage): LoadingPage {
    LoadingPage(false, st, Fresh, None, InFlight, false, false, false, None)
  }

  /** Response.ok. */
  predicate IsOk(status: int) {
    200 <= status <= 299
  }

  /** The catch branch: alert, back to the start, stop the messages. */
  function Reject(p: LoadingPage): LoadingPage {
    p.(phase := Failed, alerted := true, nav := Some(Home), rotating := false)
  }

  /** The then branch once both halves of the join are in: store the result,
      go to the result screen, stop the messages. */
  function Resolve(p: LoadingPage, json: Json, d: Payload): LoadingPage {
    p.(phase := Succeeded, api := Answered(d), waited := true,
       storage := p.storage[ResultKey := json.result.encode(d)],
       nav := Some(ResultScreen), rotating := false)
  }

  /** The join is still open and the API has not answered. */
  predicate AwaitingApi(p: LoadingPage) {
    p.phase == Waiting && p.api == InFlight
  }

  /** One event on the loading screen: the mount effect, the result route's
      reply or its failure, or the minimum-wait timer. */
  function LoadingStep(p: LoadingPage, json: Json, e: LoadingEvent): (r: LoadingPage)
    // a settled page ignores every later event
    ensures p.hasRun && p.phase != Waiting ==> r == p
    ensures r.hasRun <==> p.hasRun || e == Effect
    // storage only ever loses testHistory or gains testResult
    ensures r.storage - {HistoryKey, ResultKey} == p.storage - {HistoryKey, ResultKey}
    ensures e != Effect ==> r.request == p.request && (HistoryKey in r.storage <==> HistoryKey in p.storage)
    ensures HistoryKey in r.storage ==> HistoryKey in p.storage && r.storage[HistoryKey] == p.storage[HistoryKey]
    ensures ResultKey in p.storage ==> ResultKey in r.storage
    // testResult is written only on success, and then with the parsed reply
    ensures ResultKey in r.storage && (ResultKey !in p.storage || r.storage[ResultKey] != p.storage[ResultKey]) ==>
      r.phase == Succeeded && r.api.Answered? && r.storage[ResultKey] == json.result.encode(r.api.data)
  {
    match e
    case Effect =>
      if p.hasRun then p
      else
        var raw := GetItem(p.storage, HistoryKey);
        if !Present(raw) then p.(hasRun := true, phase := Redirected, nav := Some(Home))
        else
          var st := p.storage - {HistoryKey};
          (match json.history.decode(raw.value)
           case None => p.(hasRun := true, storage := st, rotating := true, phase := Crashed)
           case Some(h) =>
             p.(hasRun := true, storage := st, rotating := true, phase := Waiting, request := Some(h)))
    case Reply(status, body) =>
      if !AwaitingApi(p) then p
      else if !IsOk(status) then Reject(p)
      else
        (match json.result.decode(body)
         case None => Reject(p)
         case Some(d) => if p.waited then Resolve(p, json, d) else p.(api := Answered(d)))
    case NetworkError =>
      if AwaitingApi(p) then Reject(p) else p
    case MinWaitElapsed =>
      if p.phase != Waiting || p.waited then p
      else if p.api.Answered? then Resolve(p, json, p.api.data)
      else p.(waited := true)
  }

  function LoadingRun(p: LoadingPage, json: Json, es: seq<LoadingEvent>): LoadingPage
    decreases |es|
  {
    if |es| == 0 then p else LoadingRun(LoadingStep(p, json, es[0]), json, es[1..])
  }

  /** The effect body runs at most once per mount. */
  lemma EffectOnce(p: LoadingPage, json: Json)
    ensures var t := LoadingStep(p, json, Effect);
      t.hasRun && LoadingStep(t, json, Effect) == t
  {
  }

  /** No stored history (or an empty one): straight back to the start, with
      no request and storage untouched. */
  lemma MissingHistoryRedirects(st: Storage, json: Json)
    requires !Present(GetItem(st, HistoryKey))
    ensures var t := LoadingStep(MountLoading(st), json, Effect);
      t.nav == Some(Home) && t.request == None && t.storage == st && !t.rotating
  {
  }

  /** A stored history is removed as soon as it is read, before any request,
      and the request carries exactly what it parses to. */
  lemma HistoryReadOnce(st: Storage, json: Json)
    requires Present(GetItem(st, HistoryKey))
    ensures var t := LoadingStep(MountLoading(st), json, Effect);
      && t.storage == st - {HistoryKey}
      && t.request == json.history.decode(st[HistoryKey])
      && t.nav == None && t.rotating
  {
  }

  /** A non-OK status rejects the join even when the body is a valid result:
      the alert is shown, the start screen is reached and nothing is stored. */
  lemma NonOkRejects(p: LoadingPage, json: Json, status: int, body: string)
    requires AwaitingApi(p) && !IsOk(status)
    ensures var t := LoadingStep(p, json, Reply(status, body));
      t.phase == Failed && t.alerted && t.nav == Some(Home) && !t.rotating && t.storage == p.storage
  {
  }

  /** A rejection settles the join at once: it does not wait for the timer. */
  lemma RejectDoesNotWait(p: LoadingPage, json: Json)
    requires AwaitingApi(p) && !p.waited
    ensures LoadingStep(p, json, NetworkError).phase == Failed
  {
  }

  /** Every transition into success has both halves of the join: an OK reply
      that parsed, and the elapsed minimum wait, in one order or the other. */
  lemma SuccessNeedsBoth(p: LoadingPage, json: Json, e: LoadingEvent)
    requires p.phase != Succeeded
    requires LoadingStep(p, json, e).phase == Succeeded
    ensures p.phase == Waiting
    ensures || (e.Reply? && IsOk(e.status) && json.result.decode(e.body).Some? && p.waited && p.api == InFlight)
            || (e == MinWaitElapsed && p.api.Answered? && !p.waited)
  {
  }

  /** The join settles the same way whichever half arrives first: the parsed
      result is stored under testResult, the result screen is reached and the
      message interval is cleared. */
  lemma JoinEitherOrder(p: LoadingPage, json: Json, status: int, body: string, d: Payload)
    requires AwaitingApi(p) && !p.waited
    requires IsOk(status) && json.result.decode(body) == Some(d)
    ensures var a := LoadingRun(p, json, [Reply(status, body), MinWaitElapsed]);
      && a == LoadingRun(p, json, [MinWaitElapsed, Reply(status, body)])
      && a.phase == Succeeded && a.nav == Some(ResultScreen) && !a.rotating
      && a.storage == p.storage[ResultKey := json.result.encode(d)]
  {
    var r1 := LoadingStep(p, json, Reply(status, body));
    var w1 := LoadingStep(p, json, MinWaitElapsed);
    assert LoadingRun(p, json, [Reply(status, body), MinWaitElapsed])
        == LoadingRun(r1, json, [MinWaitElapsed]);
    assert LoadingRun(p, json, [MinWaitElapsed, Reply(status, body)])
        == LoadingRun(w1, json, [Reply(status, body)]);
  }

  /** An event that has occurred somewhere in a run. */
  ghost predicate HasWait(es: seq<LoadingEvent>) {
    exists i :: 0 <= i < |es| && es[i] == MinWaitElapsed
  }

  ghost predicate HasGoodReply(es: seq<LoadingEvent>, json: Json) {
    exists i :: 0 <= i < |es| && es[i].Reply? && IsOk(es[i].status)
                && json.result.decode(es[i].body).Some?
  }

  /** Over any run from an open join: reaching the result screen needs the
      minimum wait and an OK, parsable reply, each either already in or among
      the events. */
  lemma {:induction false} SuccessNeedsBothRun(p: LoadingPage, json: Json, es: seq<LoadingEvent>)
    requires p.hasRun && p.phase == Waiting
    requires LoadingRun(p, json, es).phase == Succeeded
    ensures p.waited || HasWait(es)
    ensures p.api.Answered? || HasGoodReply(es, json)
    decreases |es|
  {
    if |es| > 0 {
      var q := LoadingStep(p, json, es[0]);
      if q.phase == Succeeded {
        SuccessNeedsBoth(p, json, es[0]);
        assert es[0] == es[0];
      } else {
        if q.phase != Waiting {
          SettledStays(q, json, es[1..]);
        }
        SuccessNeedsBothRun(q, json, es[1..]);
        if HasWait(es[1..]) {
          var i :| 0 <= i < |es[1..]| && es[1..][i] == MinWaitElapsed;
          assert es[i + 1] == MinWaitElapsed;
        }
        if HasGoodReply(es[1..], json) {
          var i :| 0 <= i < |es[1..]| && es[1..][i].Reply? && IsOk(es[1..][i].status)
                   && json.result.decode(es[1..][i].body).Some?;
          assert es[i + 1] == es[1..][i];
        }
        if !p.waited && q.waited {
          assert es[0] == MinWaitElapsed;
        }
        if !p.api.Answered? && q.api.Answered? {
          assert es[0].Reply? && IsOk(es[0].status) && json.result.decode(es[0].body).Some?;
        }
      }
    }
  }

  /** Once the effect has run and the join (if any) has settled, nothing changes. */
  lemma {:induction false} SettledStays(p: LoadingPage, json: Json, es: seq<LoadingEvent>)
    requires p.hasRun && p.phase != Waiting
    ensures LoadingRun(p, json, es) == p
    decreases |es|
  {
    if |es| > 0 {
      SettledStays(LoadingStep(p, json, es[0]), json, es[1..]);
    }
  }

  /** What holds of every loading page the effect and its callbacks can reach. */
  ghost predicate LoadingValid(p: LoadingPage) {
    && (p.phase == Fresh <==> !p.hasRun)
    && (p.phase == Fresh ==> p.api == InFlight && !p.waited)
    && (p.request.Some? <==> p.phase in {Waiting, Succeeded, Failed})
    // the history is gone from storage before any request exists
    && (p.request.Some? || p.phase == Crashed ==> HistoryKey !in p.storage)
    && (p.rotating <==> p.phase in {Waiting, Crashed})
    && (p.alerted <==> p.phase == Failed)
    && (p.nav == Some(Home) <==> p.phase in {Redirected, Failed})
    && (p.nav == Some(ResultScreen) <==> p.phase == Succeeded)
    && (p.nav == None <==> p.phase in {Fresh, Waiting, Crashed})
    && (p.phase == Waiting ==> !(p.api.Answered? && p.waited))
    && (p.phase == Succeeded ==> ResultKey in p.storage && p.api.Answered?)
  }

  /** A freshly mounted loading page is valid, whatever is in storage. */
  lemma LoadingInitValid(st: Storage)
    ensures LoadingValid(MountLoading(st))
  {
  }

  lemma LoadingStepValid(p: LoadingPage, json: Json, e: LoadingEvent)
    requires LoadingValid(p)
    ensures LoadingValid(LoadingStep(p, json, e))
  {
  }

  /** Validity is kept by any sequence of events, so with LoadingInitValid it
      holds of every page reachable from a mount. */
  lemma {:induction false} LoadingRunValid(p: LoadingPage, json: Json, es: seq<LoadingEvent>)
    requires LoadingValid(p)
    ensures LoadingValid(LoadingRun(p, json, es))
    decreases |es|
  {
    if |es| > 0 {
      LoadingStepValid(p, json, es[0]);
      LoadingRunValid(LoadingStep(p, json, es[0]), json, es[1..]);
    }
  }

  // ----------------------------------------------------------------- result

  datatype ResultPage = ResultPage(
    hasLoaded: bool,
    storage: Storage,
    result: Option<Payload>,
    nav: Option<Route>)

  function OpenResult(st: Storage): ResultPage {
    ResultPage(false, st, None, None)
  }

  /** The result screen's load effect: read testResult, delete it before
      parsing, show it if it parses, otherwise go back to the start. An empty
      value counts as missing and is left where it is. A value that parses to
      null, false, 0 or "" is set as the result without navigating, and the
      screen, which shows its spinner while the result is falsy, stays on it. */
  function LoadResult(p: ResultPage, c: Codec<Payload>): (r: ResultPage)
    ensures r.hasLoaded
    ensures p.hasLoaded ==> r == p
    ensures !p.hasLoaded ==> !Present(GetItem(r.storage, ResultKey))
    ensures !p.hasLoaded ==>
      var raw := GetItem(p.storage, ResultKey);
      r.result == (if Present(raw) then c.decode(raw.value) else None)
    ensures !p.hasLoaded ==> r.nav == None || r.nav == Some(Home)
    ensures !p.hasLoaded ==>
      var raw := GetItem(p.storage, ResultKey);
      var spins := Present(raw) && c.decode(raw.value).None? && c.parsesFalsy(raw.value);
      && (r.nav == Some(Home) <==> r.result.None? && !spins)
      && (r.result.None? && r.nav == None <==> spins)
    ensures r.storage - {ResultKey} == p.storage - {ResultKey}
    // a present value is removed, and an absent or empty one is left as it was
    ensures !p.hasLoaded ==>
      r.storage == if Present(GetItem(p.storage, ResultKey)) then p.storage - {ResultKey} else p.storage
  {
    if p.hasLoaded then p
    else
      var raw := GetItem(p.storage, ResultKey);
      if Present(raw) then
        var st := p.storage - {ResultKey};
        match c.decode(raw.value)
        case Some(d) => p.(hasLoaded := true, storage := st, result := Some(d), nav := None)
        case None =>
          if c.parsesFalsy(raw.value) then p.(hasLoaded := true, storage := st, result := None, nav := None)
          else p.(hasLoaded := true, storage := st, result := None, nav := Some(Home))
      else p.(hasLoaded := true, result := None, nav := Some(Home))
  }

  /** A stored `null` (or false, 0, "") is consumed and leaves the screen on
      its spinner for good: nothing is shown and nothing navigates. */
  lemma FalsyResultSpins(st: Storage, c: Codec<Payload>)
    requires Present(GetItem(st, ResultKey))
    requires c.decode(st[ResultKey]).None? && c.parsesFalsy(st[ResultKey])
    ensures var r := LoadResult(OpenResult(st), c);
      r.result == None && r.nav == None && ResultKey !in r.storage
    ensures var r := LoadResult(OpenResult(st), c);
      LoadResult(r, c) == r
  {
  }

  /** Single use: coming back to the result screen after it has loaded once
      (back navigation, refresh) finds nothing and goes to the start. */
  lemma SecondVisitRedirects(st: Storage, c: Codec<Payload>)
    ensures var again := LoadResult(OpenResult(LoadResult(OpenResult(st), c).storage), c);
      again.nav == Some(Home) && again.result == None
  {
  }
}

=== FILE: i18n.dfy ===
/** The next-intl request configuration (i18n.ts): a requested locale is kept
    when it is in this file's list and replaced by 'en' otherwise. */
module I18n {
  import opened Wrappers

  /** This list names Chinese 'zh-CN' where the middleware's list says 'zh'. */
  const SupportedLocales: seq<string> := [
    "en", "ko", "es", "ja", "de", "fr", "pt", "ru", "zh-CN", "it",
    "ar", "hi", "id", "tr", "vi", "pl", "nl", "th", "sv", "ms"
  ]

  const FallbackLocale: string := "en"

  /** safeLocale in getRequestConfig; None is an undefined locale. */
  function SafeLocale(locale: Option<string>): (r: string)
    ensures r in SupportedLocales
    ensures locale.Some? && locale.value in SupportedLocales ==> r == locale.value
    ensures !(locale.Some? && locale.value in SupportedLocales) ==> r == FallbackLocale
  {
    if locale.Some? && locale.value in SupportedLocales then locale.value else FallbackLocale
  }

  /** Applying the fallback twice is applying it once. */
  lemma SafeLocaleIdempotent(locale: Option<string>)
    ensures SafeLocale(Some(SafeLocale(locale))) == SafeLocale(locale)
  {
  }

  /** 'zh' is not in this list, so it becomes 'en'; 'zh-CN' is kept. */
  lemma ChineseCodes()
    ensures SafeLocale(Some("zh")) == "en"
    ensures SafeLocale(Some("zh-CN")) == "zh-CN"
  {
  }

  /** The list with Chinese spelled as the middleware and the metadata table
      spell it. */
  const AlignedLocales: seq<string> := [
    "en", "ko", "es", "ja", "de", "fr", "pt", "ru", "zh", "it",
    "ar", "hi", "id", "tr", "vi", "pl", "nl", "th", "sv", "ms"
  ]

  /** safeLocale over the aligned list. */
  function AlignedSafeLocale(locale: Option<string>): (r: string)
    ensures r in AlignedLocales
    ensures locale.Some? && locale.value in AlignedLocales ==> r == locale.value
    ensures !(locale.Some? && locale.value in AlignedLocales) ==> r == FallbackLocale
  {
    if locale.Some? && locale.value in AlignedLocales then locale.value else FallbackLocale
  }
}

=== FILE: js_text.dfy ===
/** JavaScript string primitives the application relies on, with the
    ECMAScript semantics spelled out: indexOf/lastIndexOf of one character,
    substring with clamping and swapping, trim, the \s class, Number
    toString and padStart. */
module JsText {

  /** Index of the first occurrence of `c` in `s`, or -1 (String.prototype.indexOf). */
  function IndexOf(s: string, c: char): (r: int)
    ensures -1 <= r < |s|
    ensures r == -1 <==> c !in s
    ensures r >= 0 ==> s[r] == c && forall k :: 0 <= k < r ==> s[k] != c
  {
    FirstFrom(s, c, 0)
  }

  /** The first occurrence of `c` at or after position `from`, or -1. */
  function FirstFrom(s: string, c: char, from: nat): (r: int)
    requires from <= |s|
    ensures r == -1 || from <= r < |s|
    ensures r == -1 <==> forall k :: from <= k < |s| ==> s[k] != c
    ensures r >= 0 ==> s[r] == c && forall k :: from <= k < r ==> s[k] != c
    decreases |s| - from
  {
    if from == |s| then -1
    else if s[from] == c then from
    else FirstFrom(s, c, from + 1)
  }

  /** Index of the last occurrence of `c` in `s`, or -1 (String.prototype.lastIndexOf). */
  function LastIndexOf(s: string, c: char): (r: int)
    ensures -1 <= r < |s|
    ensures r == -1 <==> c !in s
    ensures r >= 0 ==> s[r] == c && forall k :: r < k < |s| ==> s[k] != c
  {
    LastBefore(s, c, |s|)
  }

  /** The last occurrence of `c` before position `upto`, or -1. */
  function LastBefore(s: string, c: char, upto: nat): (r: int)
    requires upto <= |s|
    ensures -1 <= r < upto
    ensures r == -1 <==> forall k :: 0 <= k < upto ==> s[k] != c
    ensures r >= 0 ==> s[r] == c && forall k :: r < k < upto ==> s[k] != c
  {
    if upto == 0 then -1
    else if s[upto - 1] == c then upto - 1
    else LastBefore(s, c, upto - 1)
  }

  /** An argument of String.prototype.substring: negative values become 0,
      values past the end become the length. */
  function Clamp(x: int, len: nat): (r: nat)
    ensures r <= len
    ensures 0 <= x <= len ==> r == x
    ensures x < 0 ==> r == 0
    ensures x > len ==> r == len
  {
    if x < 0 then 0 else if x > len then len else x
  }

  /** s[lo..hi] for some bounds: `r` occurs in `s` as a contiguous run. */
  ghost predicate IsInfix(r: string, s: string) {
    exists lo, hi :: 0 <= lo <= hi <= |s| && r == s[lo..hi]
  }

  /** String.prototype.substring(start, end): both arguments are clamped to
      [0, |s|] and, if the first exceeds the second, they are swapped. */
  function Substring(s: string, start: int, end: int): (r: string)
    ensures IsInfix(r, s)
    ensures 0 <= start <= end <= |s| ==> r == s[start..end]
    ensures 0 <= end <= start <= |s| ==> r == s[end..start]
    // one bound clamped: a negative bound acts as 0, one past the end as |s|
    ensures start < 0 <= end <= |s| ==> r == s[..end]
    ensures end < 0 <= start <= |s| ==> r == s[..start]
    ensures 0 <= start <= |s| < end ==> r == s[start..]
    ensures 0 <= end <= |s| < start ==> r == s[end..]
    // both bounds clamped
    ensures start <= 0 && end <= 0 ==> r == []
    ensures start >= |s| && end >= |s| ==> r == []
    ensures (start <= 0 && end >= |s|) || (end <= 0 && start >= |s|) ==> r == s
  {
    var a := Clamp(start, |s|);
    var b := Clamp(end, |s|);
    if a <= b then s[a..b] else s[b..a]
  }

  /** Swapping the arguments of substring does not change its result. */
  lemma SubstringSymmetric(s: string, start: int, end: int)
    ensures Substring(s, start, end) == Substring(s, end, start)
  {
  }

  /** A character of the ECMAScript WhiteSpace or LineTerminator classes:
      what `\s` matches and what String.prototype.trim removes. */
  predicate IsSpace(c: char) {
    c == '\t' || c == '\n' || c == '\U{000B}' || c == '\U{000C}' || c == '\r'
    || c == ' ' || c == '\U{00A0}' || c == '\U{1680}'
    || ('\U{2000}' <= c <= '\U{200A}')
    || c == '\U{2028}' || c == '\U{2029}' || c == '\U{202F}' || c == '\U{205F}'
    || c == '\U{3000}' || c == '\U{FEFF}'
  }

  /** `s` without its leading white space. */
  function TrimStart(s: string): (r: string)
    ensures |r| <= |s| && r == s[|s| - |r|..]
    ensures r == [] || !IsSpace(r[0])
    ensures forall k :: 0 <= k < |s| - |r| ==> IsSpace(s[k])
  {
    if |s| > 0 && IsSpace(s[0]) then TrimStart(s[1..]) else s
  }

  /** `s` without its trailing white space. */
  function TrimEnd(s: string): (r: string)
    ensures |r| <= |s| && r == s[..|r|]
    ensures r == [] || !IsSpace(r[|r| - 1])
    ensures forall k :: |r| <= k < |s| ==> IsSpace(s[k])
  {
    if |s| > 0 && IsSpace(s[|s| - 1]) then TrimEnd(s[..|s| - 1]) else s
  }

  /** String.prototype.trim: only white space is removed, and only from the
      two ends. */
  function Trim(s: string): (r: string)
    ensures IsInfix(r, s)
    ensures r == [] || (!IsSpace(r[0]) && !IsSpace(r[|r| - 1]))
    ensures exists lo :: TrimmedAt(s, lo, r)
  {
    var t := TrimStart(s);
    var r := TrimEnd(t);
    CutAt(s, t, r);
    r
  }

  /** A white-space prefix cut off `s`, then a white-space suffix cut off the rest. */
  lemma CutAt(s: string, t: string, r: string)
    requires |t| <= |s| && t == s[|s| - |t|..]
    requires forall k :: 0 <= k < |s| - |t| ==> IsSpace(s[k])
    requires |r| <= |t| && r == t[..|r|]
    requires forall k :: |r| <= k < |t| ==> IsSpace(t[k])
    ensures TrimmedAt(s, |s| - |t|, r)
  {
    var lo := |s| - |t|;
    assert r == s[lo..lo + |r|];
    forall k | lo + |r| <= k < |s|
      ensures IsSpace(s[k])
    {
      assert s[k] == t[k - lo];
    }
  }

  /** `r` is `s` from position `lo` on, with only white space before and after it. */
  ghost predicate TrimmedAt(s: string, lo: int, r: string) {
    && 0 <= lo <= |s| - |r|
    && r == s[lo..lo + |r|]
    && (forall k :: 0 <= k < lo ==> IsSpace(s[k]))
    && (forall k :: lo + |r| <= k < |s| ==> IsSpace(s[k]))
  }

  /** Text that neither starts nor ends with white space is left as it is by trim. */
  lemma TrimKeepsTrimmed(s: string)
    requires s == [] || (!IsSpace(s[0]) && !IsSpace(s[|s| - 1]))
    ensures Trim(s) == s
  {
  }

  /** Trimming twice is trimming once. */
  lemma TrimIdempotent(s: string)
    ensures Trim(Trim(s)) == Trim(s)
  {
    TrimKeepsTrimmed(Trim(s));
  }

  /** s.replace(/\s/g, with): every white-space character becomes `with`. */
  function ReplaceSpaces(s: string, with: char): (r: string)
    ensures |r| == |s|
    ensures forall k :: 0 <= k < |s| ==> r[k] == (if IsSpace(s[k]) then with else s[k])
  {
    seq(|s|, k requires 0 <= k < |s| => if IsSpace(s[k]) then with else s[k])
  }

  /** Replacing white space by a visible character leaves no white space, and
      only an empty string becomes empty. */
  lemma ReplaceSpacesClears(s: string, with: char)
    requires !IsSpace(with)
    ensures forall k :: 0 <= k < |s| ==> !IsSpace(ReplaceSpaces(s, with)[k])
    ensures ReplaceSpaces(s, with) == [] <==> s == []
  {
  }

  /** s.startsWith(p). */
  predicate StartsWith(s: string, p: string) {
    |p| <= |s| && s[..|p|] == p
  }

  /** The decimal digit for 0..9. */
  function DigitChar(d: nat): (c: char)
    requires d < 10
    ensures '0' <= c <= '9'
  {
    "0123456789"[d]
  }

  /** The value of a decimal digit character (0 for any other character). */
  function DigitValue(c: char): nat {
    if '0' <= c <= '9' then (c as int - '0' as int) as nat else 0
  }

  predicate IsDigits(s: string) {
    forall k :: 0 <= k < |s| ==> '0' <= s[k] <= '9'
  }

  /** The number a string of decimal digits denotes; meaningful only where
      IsDigits holds, which every use states alongside it. */
  function DigitsValue(s: string): nat {
    if |s| == 0 then 0
    else DigitsValue(s[..|s| - 1]) * 10 + DigitValue(s[|s| - 1])
  }

  /** Number.prototype.toString() of a non-negative integer: decimal digits
      without leading zeros. */
  function NatToString(n: nat): (r: string)
    ensures |r| >= 1 && IsDigits(r)
    ensures r[0] == '0' ==> |r| == 1
    ensures n < 10 <==> |r| == 1
    ensures 10 <= n < 10000 ==> 2 <= |r| <= 4
    ensures 1000 <= n < 10000 ==> |r| == 4
    ensures 10 <= n < 100 ==> |r| == 2
    decreases n
  {
    if n < 10 then [DigitChar(n)] else NatToString(n / 10) + [DigitChar(n % 10)]
  }

  /** Reading back the digits written by NatToString gives the number again. */
  lemma {:induction false} NatToStringRoundTrip(n: nat)
    ensures DigitsValue(NatToString(n)) == n
    decreases n
  {
    var r := NatToString(n);
    if n < 10 {
      assert r[..0] == [];
      DigitRoundTrip(n);
    } else {
      NatToStringRoundTrip(n / 10);
      assert r[..|r| - 1] == NatToString(n / 10);
      DigitRoundTrip(n % 10);
    }
  }

  /** A digit character reads back as its digit. */
  lemma DigitRoundTrip(d: nat)
    requires d < 10
    ensures DigitValue(DigitChar(d)) == d
  {
  }

  /** s.padStart(len, fill) with a one-character fill string. */
  function PadStart(s: string, len: nat, fill: char): (r: string)
    ensures |r| == if |s| >= len then |s| else len
    ensures r[|r| - |s|..] == s
    ensures forall k :: 0 <= k < |r| - |s| ==> r[k] == fill
  {
    if |s| >= len then s
    else
      var pad := seq(len - |s|, _ => fill);
      assert (pad + s)[|pad|..] == s;
      pad + s
  }

  /** n.toString().padStart(2, '0'): the two-digit form used by clocks and dates. */
  function TwoDigits(n: nat): string {
    PadStart(NatToString(n), 2, '0')
  }

  /** Below 100 the two-digit form has exactly two digits and denotes `n`. */
  lemma TwoDigitsRoundTrip(n: nat)
    requires n < 100
    ensures |TwoDigits(n)| == 2 && IsDigits(TwoDigits(n))
    ensures DigitsValue(TwoDigits(n)) == n
  {
    var s := NatToString(n);
    var r := TwoDigits(n);
    NatToStringRoundTrip(n);
    if n < 10 {
      assert r == ['0'] + s;
      assert r[..1] == ['0'];
      assert r[..1][..0] == [];
    } else {
      assert r == s;
    }
  }
}

=== FILE: layout.dfy ===
/** The root layout (app/layout.tsx): the page metadata and the html element
    are chosen from the raw locale cookie, with 'en' when it is missing. */
module Layout {
  import opened Wrappers

  /** The locales lib/metadata.ts has an entry for; its texts are not modelled. */
  const MetadataLocales: set<string> := {
    "ko", "en", "es", "ja", "de", "fr", "pt", "ru", "zh", "it",
    "ar", "hi", "id", "tr", "vi", "pl", "nl", "th", "sv", "ms"
  }

  const DefaultLocale: string := "en"
  const SiteUrl: string := "https://testgame.site"

  /** One entry of the localized metadata table. */
  datatype Meta = Meta(title: string, description: string, siteName: string)

  datatype OpenGraph = OpenGraph(
    title: string, description: string, url: string, locale: string,
    siteName: string, kind: string)

  datatype Twitter = Twitter(title: string, description: string, card: string)

  datatype Metadata = Metadata(
    title: string, description: string, openGraph: OpenGraph, twitter: Twitter)

  /** cookieStore.get('locale')?.value || 'en'. */
  function CookieLocale(cookie: Option<string>): (r: string)
    ensures r != ""
    ensures cookie.Some? && cookie.value != "" ==> r == cookie.value
    ensures cookie.None? || cookie.value == "" ==> r == DefaultLocale
  {
    if cookie.Some? && cookie.value != "" then cookie.value else DefaultLocale
  }

  /** localizedMetadata[locale] ?? localizedMetadata['en']. */
  function MetaFor(table: map<string, Meta>, locale: string): (m: Meta)
    requires DefaultLocale in table
    ensures locale in table ==> m == table[locale]
    ensures locale !in table ==> m == table[DefaultLocale]
  {
    if locale in table then table[locale] else table[DefaultLocale]
  }

  /** generateMetadata over the metadata table. */
  function GenerateMetadata(cookie: Option<string>, table: map<string, Meta>): (md: Metadata)
    requires table.Keys == MetadataLocales
    ensures md.title == md.openGraph.title == md.twitter.title
    ensures md.description == md.openGraph.description == md.twitter.description
    ensures md.openGraph.locale == CookieLocale(cookie)
    ensures var key := CookieLocale(cookie);
      var m := if key in MetadataLocales then table[key] else table[DefaultLocale];
      && md.title == m.title
      && md.description == m.description
      && md.openGraph.siteName == m.siteName
    ensures md.openGraph.url == SiteUrl && md.openGraph.kind == "website"
    ensures md.twitter.card == "summary_large_image"
  {
    var locale := CookieLocale(cookie);
    var meta := MetaFor(table, locale);
    Metadata(meta.title, meta.description,
      OpenGraph(meta.title, meta.description, SiteUrl, locale, meta.siteName, "website"),
      Twitter(meta.title, meta.description, "summary_large_image"))
  }

  /** An unknown cookie locale gets the English texts, yet openGraph.locale
      still reports the cookie's own value. */
  lemma UnknownLocaleMetadata(v: string, table: map<string, Meta>)
    requires table.Keys == MetadataLocales
    requires v != "" && v !in MetadataLocales
    ensures var md := GenerateMetadata(Some(v), table);
      && md.title == table[DefaultLocale].title
      && md.description == table[DefaultLocale].description
      && md.openGraph.siteName == table[DefaultLocale].siteName
      && md.openGraph.locale == v
  {
  }

  /** A known cookie locale gets its own texts everywhere they appear. */
  lemma KnownLocaleMetadata(v: string, table: map<string, Meta>)
    requires table.Keys == MetadataLocales
    requires v in MetadataLocales
    ensures var md := GenerateMetadata(Some(v), table);
      && md.title == md.openGraph.title == md.twitter.title == table[v].title
      && md.description == md.openGraph.description == md.twitter.description == table[v].description
      && md.openGraph.siteName == table[v].siteName
      && md.openGraph.locale == v
  {
    assert v != "";
  }

  /** getMessages: the requested catalog, or the English one when that import
      fails; None when the English import fails as well. */
  function GetMessages<M>(locale: string, load: string -> Option<M>): (r: Option<M>)
    ensures load(locale).Some? ==> r == load(locale)
    ensures load(locale).None? ==> r == load(DefaultLocale)
  {
    match load(locale)
    case Some(m) => Some(m)
    case None => load(DefaultLocale)
  }

  /** What RootLayout renders around the page. */
  datatype Html<M> = Html(lang: string, providerLocale: string, messages: Option<M>)

  function RootLayout<M>(cookie: Option<string>, load: string -> Option<M>): (h: Html<M>)
    ensures h.lang == h.providerLocale == CookieLocale(cookie)
    ensures h.messages == GetMessages(h.lang, load)
  {
    var locale := CookieLocale(cookie);
    Html(locale, locale, GetMessages(locale, load))
  }

  /** A missing or empty cookie renders English with the English catalog. */
  lemma NoCookieIsEnglish<M>(cookie: Option<string>, load: string -> Option<M>)
    requires cookie.None? || cookie.value == ""
    ensures RootLayout(cookie, load).lang == "en"
    ensures RootLayout(cookie, load).messages == load("en")
  {
  }
}

=== FILE: middleware.dfy ===
/** The edge middleware (middleware.ts): pick the request's locale from the
    locale cookie or, failing that, from language negotiation, forward it as
    the x-locale request header and write it back as the locale cookie. */
module Middleware {
  import opened Wrappers
  import opened JsText

  const SupportedLocales: seq<string> := [
    "en", "ko", "es", "ja", "de", "fr", "pt", "ru", "zh", "it",
    "ar", "hi", "id", "tr", "vi", "pl", "nl", "th", "sv", "ms"
  ]

  const DefaultLocale: string := "en"

  const LocaleHeader: string := "x-locale"
  const LocaleCookie: string := "locale"

  /** The parts of the request the middleware reads. Header names are the
      lower-case names the Headers object stores. */
  datatype Request = Request(cookie: Option<string>, headers: map<string, string>)

  datatype Cookie = Cookie(name: string, value: string, path: string)

  /** NextResponse.next with rewritten request headers, plus a Set-Cookie. */
  datatype Response = Response(requestHeaders: map<string, string>, setCookie: Cookie)

  /** The cookie alone settles the locale: it names a supported locale. */
  predicate CookieSettles(cookie: Option<string>) {
    cookie.Some? && cookie.value in SupportedLocales
  }

  /** detectLocale. `negotiated` is what the locale matcher did with the
      request's Accept-Language preferences: Some(a member of the list or the
      default) when it answers, None when it throws, as it does for the
      preference list `*` that a request without Accept-Language yields. The
      matcher runs only when the cookie does not settle the locale, so a
      throw escapes only then. */
  function DetectLocale(cookie: Option<string>, negotiated: Option<string>): (r: Option<string>)
    requires negotiated.Some? ==> negotiated.value in SupportedLocales
    ensures r.Some? ==> r.value in SupportedLocales
    ensures CookieSettles(cookie) ==> r == Some(cookie.value)
    ensures !CookieSettles(cookie) ==> r == negotiated
    ensures r.None? <==> !CookieSettles(cookie) && negotiated.None?
  {
    if cookie.Some? && cookie.value != "" && cookie.value in SupportedLocales then Some(cookie.value)
    else negotiated
  }

  /** The middleware on one request: None when detectLocale throws, and the
      request then fails before any header or cookie is set. */
  function Handle(req: Request, negotiated: Option<string>): (r: Option<Response>)
    requires negotiated.Some? ==> negotiated.value in SupportedLocales
    ensures r.None? <==> DetectLocale(req.cookie, negotiated).None?
    ensures r.Some? ==> r.value.setCookie == Cookie(LocaleCookie, DetectLocale(req.cookie, negotiated).value, "/")
    ensures r.Some? ==> LocaleHeader in r.value.requestHeaders
                        && r.value.requestHeaders[LocaleHeader] == r.value.setCookie.value
    ensures r.Some? ==> r.value.requestHeaders - {LocaleHeader} == req.headers - {LocaleHeader}
  {
    match DetectLocale(req.cookie, negotiated)
    case None => None
    case Some(locale) => Some(Response(req.headers[LocaleHeader := locale], Cookie(LocaleCookie, locale, "/")))
  }

  /** A first visit with no usable cookie whose preferences make the matcher
      throw (no Accept-Language header at all, say) is not served. */
  lemma UnmatchedFirstVisitFails(cookie: Option<string>, headers: map<string, string>)
    requires !CookieSettles(cookie)
    ensures Handle(Request(cookie, headers), None) == None
  {
  }

  /** The cookie written by one response settles the next request: whatever
      its headers negotiate, even when the matcher would throw, the follow-up
      resolves to the same locale and writes the same cookie. */
  lemma LocaleSticks(req: Request, negotiated: Option<string>, headers: map<string, string>,
                     negotiated': Option<string>)
    requires negotiated.Some? ==> negotiated.value in SupportedLocales
    requires negotiated'.Some? ==> negotiated'.value in SupportedLocales
    requires Handle(req, negotiated).Some?
    ensures var first := Handle(req, negotiated).value;
      var next := Handle(Request(Some(first.setCookie.value), headers), negotiated');
      next.Some? && next.value.setCookie == first.setCookie
  {
  }

  /** A character `.` in a JavaScript regular expression does not match. */
  predicate IsLineTerminator(c: char) {
    c == '\n' || c == '\r' || c == '\U{2028}' || c == '\U{2029}'
  }

  /** The text after the slash starts like `favicon.ico`, where the unescaped
      dot of the pattern matches any one character. */
  predicate FaviconLike(rest: string) {
    |rest| >= 11 && rest[..7] == "favicon" && !IsLineTerminator(rest[7]) && rest[8..11] == "ico"
  }

  /** config.matcher: the path matches /((?!_next|favicon.ico|api).*) whole,
      so the text after the leading slash must not begin with `_next`,
      `favicon.ico` or `api`. */
  predicate Processes(path: string) {
    && |path| >= 1 && path[0] == '/'
    && (forall k :: 1 <= k < |path| ==> !IsLineTerminator(path[k]))
    && !StartsWith(path[1..], "_next")
    && !FaviconLike(path[1..])
    && !StartsWith(path[1..], "api")
  }

  /** Framework assets and API routes never pass through the middleware; the
      exclusion works on prefixes, so `/apiary` is skipped too. */
  lemma SkipsPrefixes(path: string)
    requires StartsWith(path, "/api") || StartsWith(path, "/_next")
    ensures !Processes(path)
  {
    if StartsWith(path, "/api") {
      assert path[1..][..3] == path[1..4];
    } else {
      assert path[1..][..5] == path[1..6];
    }
  }

  /** For a path that starts with a slash and holds no line terminator, the
      matcher lets it through exactly when it starts with none of `/api`,
      `/_next` and `/favicon`-any-character-`ico`. */
  lemma ProcessesExactly(path: string)
    requires |path| >= 1 && path[0] == '/'
    requires forall k :: 1 <= k < |path| ==> !IsLineTerminator(path[k])
    ensures Processes(path) <==>
      !StartsWith(path, "/api") && !StartsWith(path, "/_next") && !FaviconLike(path[1..])
  {
    SlashPrefix(path, "api");
    assert "/" + "api" == "/api";
    SlashPrefix(path, "_next");
    assert "/" + "_next" == "/_next";
  }

  /** A path starts with `/` then `p` exactly when the text after its slash
      starts with `p`. */
  lemma SlashPrefix(path: string, p: string)
    requires |path| >= 1 && path[0] == '/'
    ensures StartsWith(path, "/" + p) <==> StartsWith(path[1..], p)
  {
    if |path| >= |p| + 1 {
      assert path[..|p| + 1] == "/" + path[1..][..|p|];
    }
  }

  /** The application's pages all pass the matcher. */
  lemma MatcherPassesPages()
    ensures Processes("/") && Processes("/test") && Processes("/result")
  {
    assert "/test"[1..][..3] == "tes" && "/test"[1..][..3] != "api";
    assert "/result"[1..][..3] == "res" && "/result"[1..][..5] == "resul";
    assert "/result"[1..][..5] != "_next";
  }

  /** The API, framework assets and the favicon are skipped, and so are
      /apiary and /favicon-ico, since the pattern works on prefixes and its
      dot matches any character. */
  lemma MatcherSkipsOthers()
    ensures !Processes("/api/generate-result") && !Processes("/favicon.ico")
    ensures !Processes("/_next/static/app.js") && !Processes("/apiary")
    ensures !Processes("/favicon-ico")
  {
    assert "/api/generate-result"[1..][..3] == "api";
    assert "/apiary"[1..][..3] == "api";
    assert "/_next/static/app.js"[1..][..5] == "_next";
    assert FaviconLike("/favicon.ico"[1..]);
    assert FaviconLike("/favicon-ico"[1..]);
  }
}

=== FILE: questions_route.dfy ===
/** POST /api/generate-questions (app/api/generate-questions/route.ts): ask the
    language model for the questions, cut the JSON array out of its text,
    parse it, and answer with the parsed value or with two canned questions
    and status 500. The handler takes no request argument, so nothing the
    client sends (its locale included) reaches the prompt. */
module QuestionsRoute {
  import opened Wrappers
  import opened Domain
  import opened JsText

  /** text.substring(text.indexOf('['), text.lastIndexOf(']') + 1): from the
      first '[' through the last ']' when they come in that order. */
  function JsonSlice(text: string): (r: string)
    ensures IsInfix(r, text)
    ensures '[' in text && ']' in text && IndexOf(text, '[') <= LastIndexOf(text, ']') ==>
      r == text[IndexOf(text, '[')..LastIndexOf(text, ']') + 1]
    ensures ']' !in text ==> |r| <= IndexOf(text, '[') + 1
  {
    Substring(text, IndexOf(text, '['), LastIndexOf(text, ']') + 1)
  }

  /** Whatever the model wrote, the slice is a contiguous piece of it. */
  lemma SliceIsInfix(text: string)
    ensures IsInfix(JsonSlice(text), text)
  {
  }

  /** With a '[' at i and the last ']' at j >= i, the slice is text[i..j+1]:
      it runs from the first '[' to the last ']' inclusive. */
  lemma SliceBracketed(text: string)
    requires '[' in text && ']' in text
    requires IndexOf(text, '[') <= LastIndexOf(text, ']')
    ensures var i := IndexOf(text, '[');
      var j := LastIndexOf(text, ']');
      JsonSlice(text) == text[i..j + 1]
    ensures var r := JsonSlice(text);
      |r| >= 1 && r[0] == '[' && r[|r| - 1] == ']'
  {
    var i := IndexOf(text, '[');
    var j := LastIndexOf(text, ']');
    var r := JsonSlice(text);
    assert r == text[i..j + 1];
    BracketedEnds(text, i, j, r);
  }

  lemma BracketedEnds(text: string, i: int, j: int, r: string)
    requires 0 <= i <= j < |text| && text[i] == '[' && text[j] == ']'
    requires r == text[i..j + 1]
    ensures |r| >= 1 && r[0] == '[' && r[|r| - 1] == ']'
  {
  }

  /** With no ']' the end argument is 0, so the slice is everything before
      the first '[', and the empty string if there is no '[' either. */
  lemma SliceWithoutClose(text: string)
    requires ']' !in text
    ensures JsonSlice(text) == if '[' in text then text[..IndexOf(text, '[')] else []
  {
  }

  /** With a ']' but no '[' the start argument is -1, which substring
      treats as 0: the slice is the text up to and including the last ']'. */
  lemma SliceWithoutOpen(text: string)
    requires '[' !in text && ']' in text
    ensures JsonSlice(text) == text[..LastIndexOf(text, ']') + 1]
  {
  }

  /** A last ']' before the first '[' makes substring swap its bounds: the
      slice is what lies strictly between them. */
  lemma SliceReversed(text: string)
    requires '[' in text && ']' in text
    requires LastIndexOf(text, ']') < IndexOf(text, '[')
    ensures JsonSlice(text) == text[LastIndexOf(text, ']') + 1..IndexOf(text, '[')]
  {
  }

  /** The response: a body and an HTTP status. */
  datatype Reply = Reply(status: int, questions: seq<Question>)

  /** The canned questions of the catch branch. */
  const FallbackQuestions: seq<Question> := [
    Question("AI가 응답하지 않습니다. 당신 탓인 것 같습니다. 어떻게 하시겠습니까?",
             ["내 탓을 한다", "AI 탓을 한다", "인터넷 탓을 한다"]),
    Question("비상용 질문이 나타났습니다. 왠지 희귀한 결과를 볼 수 있을 것 같습니다. 기분이 어떻습니까?",
             ["오히려 좋아", "찝찝하다", "아무 생각 없다"])
  ]

  /** The handler. `generated` is the model's text, None when the call threw;
      `parse` is JSON.parse at the question-list type, None when it threw. */
  function Post(generated: Option<string>, parse: string -> Option<seq<Question>>): (r: Reply)
    ensures r.status == 200 || r.status == 500
    ensures r.status == 500 <==> generated.None? || parse(JsonSlice(generated.value)).None?
    ensures r.status == 500 ==> r.questions == FallbackQuestions
    ensures r.status == 200 ==> Some(r.questions) == parse(JsonSlice(generated.value))
  {
    match generated
    case None => Reply(500, FallbackQuestions)
    case Some(text) =>
      match parse(JsonSlice(text))
      case None => Reply(500, FallbackQuestions)
      case Some(qs) => Reply(200, qs)
  }

  /** The fallback has two questions of exactly three options each. */
  lemma FallbackShape()
    ensures |FallbackQuestions| == 2
    ensures forall q :: q in FallbackQuestions ==> |q.options| == 3
  {
  }

  /** Nothing checks the parsed list: one question with one option, far from
      the five questions of three or four options the prompt asks for, is
      returned as it is with status 200. */
  lemma ParsedListUnchecked(text: string)
    ensures var odd := [Question("?", ["only"])];
      Post(Some(text), _ => Some(odd)) == Reply(200, odd)
  {
  }

  /** Whatever list the parser yields is sent with status 200: no field of
      it is checked, so an empty list, a question without options or options
      of any number all pass. */
  lemma AnyListForwarded(text: string, parse: string -> Option<seq<Question>>, qs: seq<Question>)
    requires parse(JsonSlice(text)) == Some(qs)
    ensures Post(Some(text), parse) == Reply(200, qs)
  {
  }
}

=== FILE: quiz.dfy ===
/** The quiz screen (app/test/page.tsx) as a pure state machine: the question
    list, the start flag, the current step, the session-wide countdown and the
    answer history, driven by four events. Navigation away from the screen is
    recorded in `exit` and ends the machine. */
module Quiz {
  import opened Domain
  import JsText

  /** Seconds on the clock when the screen mounts. */
  const CountdownStart: nat := 60

  /** Where the screen has gone, if anywhere. Completing writes the history
      under testHistory, which `saved` carries. */
  datatype Exit = Staying | ToFail | ToLoading(saved: seq<Entry>)

  datatype State = State(
    questions: seq<Question>,
    started: bool,
    step: nat,
    countdown: nat,
    history: seq<Entry>,
    alarmPlaying: bool,
    exit: Exit)

  datatype Event =
    | QuestionsLoaded(qs: seq<Question>)  // the question fetch resolved
    | Start                               // the start button was pressed
    | Tick                                // one second of the countdown interval
    | Select(option: string)              // an option button was pressed

  function Init(): State {
    State([], false, 0, CountdownStart, [], false, Staying)
  }

  /** The start button is shown before the test starts and enabled once questions exist. */
  predicate CanStart(s: State) {
    s.exit == Staying && !s.started && |s.questions| > 0
  }

  /** The countdown interval's update: one less, never below zero. */
  function TickCountdown(c: nat): (r: nat)
    ensures r <= c
    ensures c == 0 ==> r == 0
    ensures c > 0 ==> r + 1 == c
  {
    if c > 0 then c - 1 else 0
  }

  /** The entry Select(option) records for the current question. */
  function Answer(q: Question, option: string): Entry {
    Entry(q.question, q.options, option)
  }

  /** One transition. Events the screen cannot deliver (a disabled start
      button, a tick before the interval exists, an option that is not
      rendered) leave the state unchanged, and so does everything after the
      screen has navigated away. */
  function Next(s: State, e: Event): (r: State)
    ensures s.exit != Staying ==> r == s
    ensures r.countdown <= s.countdown
    ensures s.history <= r.history && |r.history| <= |s.history| + 1
    ensures s.started ==> r.started && r.questions == s.questions
  {
    if s.exit != Staying then s
    else
      match e
      case QuestionsLoaded(qs) =>
        if s.started then s else s.(questions := qs)
      case Start =>
        if CanStart(s) then s.(started := true, alarmPlaying := true) else s
      case Tick =>
        if !s.started then s
        else
          var c := TickCountdown(s.countdown);
          // the effect on [countdown, isTestStarted]: stop the alarm, go to /fail
          if c == 0 then s.(countdown := 0, alarmPlaying := false, exit := ToFail)
          else s.(countdown := c)
      case Select(option) =>
        if !s.started || s.step >= |s.questions| || option !in s.questions[s.step].options then s
        else
          var h := s.history + [Answer(s.questions[s.step], option)];
          if s.step + 1 < |s.questions| then s.(history := h, step := s.step + 1)
          else s.(history := h, exit := ToLoading(h))
  }

  /** The events in order. Over any run the clock never goes up, the history
      only grows at its end, by at most one entry per event, and once the
      test runs its questions stay fixed. */
  function Run(s: State, es: seq<Event>): (r: State)
    ensures r.countdown <= s.countdown
    ensures s.history <= r.history && |r.history| <= |s.history| + |es|
    ensures s.started ==> r.started && r.questions == s.questions
    decreases |es|
  {
    if |es| == 0 then s else Run(Next(s, es[0]), es[1..])
  }

  /** The history records the questions in order, each with a rendered option. */
  ghost predicate HistoryMatches(h: seq<Entry>, qs: seq<Question>) {
    |h| <= |qs| &&
    forall i :: 0 <= i < |h| ==>
      h[i].question == qs[i].question && h[i].options == qs[i].options
      && h[i].selected in qs[i].options
  }

  /** What holds of every state the screen can reach. */
  ghost predicate Valid(s: State) {
    && s.countdown <= CountdownStart
    && HistoryMatches(s.history, s.questions)
    && (!s.started ==> s.step == 0 && s.history == [] && s.countdown == CountdownStart
                       && s.exit == Staying && !s.alarmPlaying)
    && (s.started ==> |s.questions| > 0)
    // the failure effect fires exactly when the test runs and the clock shows zero
    && (s.started && s.countdown == 0 <==> s.exit == ToFail)
    && (s.exit == Staying && s.started ==> s.step < |s.questions| && |s.history| == s.step && s.alarmPlaying)
    && (s.exit.ToLoading? ==> s.exit.saved == s.history && |s.history| == |s.questions|)
    && (s.exit == ToFail ==> !s.alarmPlaying && |s.history| < |s.questions|)
  }

  lemma InitValid()
    ensures Valid(Init())
  {
  }

  /** Every transition keeps the invariant. */
  lemma NextValid(s: State, e: Event)
    requires Valid(s)
    ensures Valid(Next(s, e))
  {
    if s.exit == Staying && e.Select? && s.started && s.step < |s.questions|
       && e.option in s.questions[s.step].options {
      var h := s.history + [Answer(s.questions[s.step], e.option)];
      assert forall i :: 0 <= i < |s.history| ==> h[i] == s.history[i];
    }
  }

  lemma {:induction false} RunValid(s: State, es: seq<Event>)
    requires Valid(s)
    ensures Valid(Run(s, es))
    decreases |es|
  {
    if |es| > 0 {
      NextValid(s, es[0]);
      RunValid(Next(s, es[0]), es[1..]);
    }
  }

  /** Once the screen has navigated away no event changes anything. */
  lemma {:induction false} ExitIsFinal(s: State, es: seq<Event>)
    requires s.exit != Staying
    ensures Run(s, es) == s
    decreases |es|
  {
    if |es| > 0 {
      ExitIsFinal(Next(s, es[0]), es[1..]);
    }
  }

  /** The clock only runs after Start, Start needs a non-empty question list,
      and with one Start begins the test and the alarm and nothing else. */
  lemma StartNeedsQuestions(s: State, e: Event)
    requires Valid(s)
    ensures !s.started && Next(s, e).started ==> e == Start && |s.questions| > 0
    ensures !s.started ==> Next(s, Tick) == s
    ensures CanStart(s) ==> Next(s, Start) == s.(started := true, alarmPlaying := true)
    ensures !CanStart(s) ==> Next(s, Start) == s
  {
  }

  /** A tick lowers the clock by one; the failure transition (alarm stopped,
      /fail reached) happens exactly on the tick that reaches zero. */
  lemma TickStep(s: State)
    requires Valid(s) && s.started && s.exit == Staying
    ensures Next(s, Tick).countdown + 1 == s.countdown
    ensures Next(s, Tick).exit == ToFail <==> s.countdown == 1
    ensures Next(s, Tick).history == s.history && Next(s, Tick).step == s.step
  {
  }

  /** One answer appends exactly one entry copied from the current question,
      keeps earlier entries, leaves the clock alone, and either moves to the
      next question or completes with the whole history saved. */
  lemma SelectStep(s: State, option: string)
    requires Valid(s) && s.started && s.exit == Staying
    requires option in s.questions[s.step].options
    ensures var t := Next(s, Select(option));
      && t.history == s.history + [Entry(s.questions[s.step].question, s.questions[s.step].options, option)]
      && t.countdown == s.countdown
      && (s.step + 1 < |s.questions| ==> t.step == s.step + 1 && t.exit == Staying)
      && (s.step + 1 == |s.questions| ==> t.exit == ToLoading(t.history))
  {
  }

  /** Only a rendered option can be selected: any other value is no event at all. */
  lemma SelectOnlyRendered(s: State, option: string)
    requires Valid(s) && s.started && s.exit == Staying
    requires option !in s.questions[s.step].options
    ensures Next(s, Select(option)) == s
  {
  }

  /** The events for answering with `opts`, in order. */
  function Selects(opts: seq<string>): (es: seq<Event>)
    ensures |es| == |opts|
    ensures forall i :: 0 <= i < |opts| ==> es[i] == Select(opts[i])
  {
    seq(|opts|, i requires 0 <= i < |opts| => Select(opts[i]))
  }

  /** The history entries answering `qs` with `opts`. */
  function Answers(qs: seq<Question>, opts: seq<string>): (h: seq<Entry>)
    requires |qs| == |opts|
    ensures |h| == |qs|
    ensures forall i :: 0 <= i < |qs| ==> h[i] == Entry(qs[i].question, qs[i].options, opts[i])
  {
    seq(|qs|, i requires 0 <= i < |qs| => Answer(qs[i], opts[i]))
  }

  /** The test runs and a question is on screen. */
  predicate Answering(s: State) {
    s.exit == Staying && s.started && s.step < |s.questions|
  }

  /** `opts` answers the questions from `from` on with rendered options. */
  ghost predicate Answerable(qs: seq<Question>, from: nat, opts: seq<string>) {
    from + |opts| <= |qs| &&
    forall i :: 0 <= i < |opts| ==> opts[i] in qs[from + i].options
  }

  /** What answering with `opts` from `s` yields: the history grows by exactly
      those entries, the clock is untouched, and the screen completes exactly
      when the last question has been answered. */
  ghost predicate AnswerOutcome(s: State, opts: seq<string>) {
    && s.step + |opts| <= |s.questions|
    && Outcome(s, |opts|, Answers(s.questions[s.step..s.step + |opts|], opts), Run(s, Selects(opts)))
  }

  /** `t` is `s` after `k` answers that added the entries `added`. */
  ghost predicate Outcome(s: State, k: nat, added: seq<Entry>, t: State) {
    && t.history == s.history + added
    && t.countdown == s.countdown
    && (s.step + k < |s.questions| ==> t.exit == Staying && t.step == s.step + k)
    && (s.step + k == |s.questions| ==> t.exit == ToLoading(t.history))
  }

  /** Answering k questions in a row, for every k up to the questions left. */
  lemma {:induction false} AnswerRun(s: State, opts: seq<string>)
    requires Answering(s)
    requires Answerable(s.questions, s.step, opts)
    ensures AnswerOutcome(s, opts)
    decreases |opts|
  {
    if |opts| == 0 {
      assert Answers(s.questions[s.step..s.step], opts) == [];
    } else {
      var u := Next(s, Select(opts[0]));
      SelectNext(s, opts[0]);
      if |opts| > 1 {
        assert Answering(u) && u.step == s.step + 1 && u.questions == s.questions;
        AnswerableTail(s.questions, s.step, opts);
        AnswerRun(u, opts[1..]);
      }
      AnswerRunCons(s, opts);
    }
  }

  /** The inductive step of AnswerRun: one answer, then the rest. */
  lemma AnswerRunCons(s: State, opts: seq<string>)
    requires Answering(s) && Answerable(s.questions, s.step, opts) && |opts| > 0
    requires |opts| > 1 ==> AnswerOutcome(Next(s, Select(opts[0])), opts[1..])
    ensures AnswerOutcome(s, opts)
  {
    assert opts[0] in s.questions[s.step].options;
    if |opts| == 1 {
      AnswerLast(s, opts[0]);
    } else {
      AnswerFirst(s, opts);
    }
  }

  /** One answer that leaves questions to go, then the rest. */
  lemma AnswerFirst(s: State, opts: seq<string>)
    requires Answering(s) && |opts| > 1 && s.step + |opts| <= |s.questions|
    requires opts[0] in s.questions[s.step].options
    requires AnswerOutcome(Next(s, Select(opts[0])), opts[1..])
    ensures AnswerOutcome(s, opts)
  {
    var u := Next(s, Select(opts[0]));
    RunSelectsCons(s, opts);
    AnswerCombine(s, u, Run(u, Selects(opts[1..])), opts);
  }

  /** The outcome of the first answer followed by the outcome of the rest. */
  lemma AnswerCombine(s: State, u: State, t: State, opts: seq<string>)
    requires |opts| > 1 && s.step + |opts| <= |s.questions|
    requires u.history == s.history + [Answer(s.questions[s.step], opts[0])]
    requires u.step == s.step + 1 && u.questions == s.questions && u.countdown == s.countdown
    requires Outcome(u, |opts| - 1, Answers(u.questions[u.step..u.step + |opts[1..]|], opts[1..]), t)
    ensures Outcome(s, |opts|, Answers(s.questions[s.step..s.step + |opts|], opts), t)
  {
    var n := s.step + |opts|;
    AnswersSplit(s.questions, s.step, opts);
    AnswerMore(s, u, t, |opts|, Answer(s.questions[s.step], opts[0]),
               Answers(s.questions[s.step + 1..n], opts[1..]));
  }

  /** The entries for answers from `from` on: the first one, then the rest. */
  lemma AnswersSplit(qs: seq<Question>, from: nat, opts: seq<string>)
    requires |opts| > 0 && from + |opts| <= |qs|
    ensures Answers(qs[from..from + |opts|], opts)
      == [Answer(qs[from], opts[0])] + Answers(qs[from + 1..from + |opts|], opts[1..])
  {
    AnswersCons(qs[from..from + |opts|], opts);
    assert qs[from..from + |opts|][1..] == qs[from + 1..from + |opts|];
  }

  lemma AnswerLast(s: State, option: string)
    requires Answering(s) && option in s.questions[s.step].options
    ensures AnswerOutcome(s, [option])
  {
    var u := Next(s, Select(option));
    SelectNext(s, option);
    RunSelectsCons(s, [option]);
    assert Run(s, Selects([option])) == u;
    assert Answers(s.questions[s.step..s.step + 1], [option]) == [Answer(s.questions[s.step], option)];
  }

  lemma AnswerMore(s: State, u: State, t: State, k: nat, head: Entry, rest: seq<Entry>)
    requires k >= 1
    requires u.history == s.history + [head] && u.step == s.step + 1
    requires u.questions == s.questions && u.countdown == s.countdown
    requires Outcome(u, k - 1, rest, t)
    ensures Outcome(s, k, [head] + rest, t)
  {
    assert (s.history + [head]) + rest == s.history + ([head] + rest);
  }

  lemma SelectNext(s: State, option: string)
    requires Answering(s) && option in s.questions[s.step].options
    ensures var h := s.history + [Answer(s.questions[s.step], option)];
      Next(s, Select(option))
        == if s.step + 1 < |s.questions| then s.(history := h, step := s.step + 1)
           else s.(history := h, exit := ToLoading(h))
  {
  }

  lemma RunSelectsCons(s: State, opts: seq<string>)
    requires |opts| > 0
    ensures Run(s, Selects(opts)) == Run(Next(s, Select(opts[0])), Selects(opts[1..]))
  {
    assert Selects(opts)[1..] == Selects(opts[1..]);
  }

  lemma AnswersCons(qs: seq<Question>, opts: seq<string>)
    requires |qs| == |opts| > 0
    ensures Answers(qs, opts) == [Answer(qs[0], opts[0])] + Answers(qs[1..], opts[1..])
  {
  }

  lemma AnswerableTail(qs: seq<Question>, from: nat, opts: seq<string>)
    requires |opts| > 0 && Answerable(qs, from, opts)
    ensures Answerable(qs, from + 1, opts[1..])
  {
    forall i | 0 <= i < |opts[1..]|
      ensures opts[1..][i] in qs[from + 1 + i].options
    {
      assert opts[1..][i] == opts[i + 1];
    }
  }

  /** A full session: from a fresh start, exactly |questions| answers complete
      the quiz, the saved history has one entry per question, and the clock
      is what it was when the first answer came in. */
  lemma CompleteSession(s: State, opts: seq<string>)
    requires Valid(s) && s.started && s.exit == Staying && s.step == 0
    requires |opts| == |s.questions|
    requires forall i :: 0 <= i < |opts| ==> opts[i] in s.questions[i].options
    ensures var t := Run(s, Selects(opts));
      && t.exit == ToLoading(Answers(s.questions, opts))
      && |t.exit.saved| == |s.questions|
      && t.countdown == s.countdown
  {
    assert s.history == [];
    assert s.questions[0..|opts|] == s.questions;
    AnswerRun(s, opts);
    assert AnswerOutcome(s, opts);
  }

  /** k ticks of the countdown interval. */
  function Ticking(k: nat): (es: seq<Event>)
    ensures |es| == k && forall i :: 0 <= i < k ==> es[i] == Tick
  {
    seq(k, _ => Tick)
  }

  /** Ticking is subtraction floored at zero on the screen itself: k ticks of
      a running test leave max(c - k, 0) on the clock and the history as it
      was, and ticks before the start or after navigating change nothing. */
  lemma {:induction false} TicksFloor(s: State, k: nat)
    ensures var t := Run(s, Ticking(k));
      && t.history == s.history
      && (s.started && s.exit == Staying ==>
            t.countdown == if s.countdown >= k then s.countdown - k else 0)
      && (!s.started || s.exit != Staying ==> t == s)
    decreases k
  {
    if k > 0 {
      var u := Next(s, Tick);
      assert Ticking(k)[1..] == Ticking(k - 1);
      assert Run(s, Ticking(k)) == Run(u, Ticking(k - 1));
      TicksFloor(u, k - 1);
    }
  }

  /** Left alone, a running test fails exactly when the clock has ticked down
      to zero: the alarm stops, /fail is reached, the history is not saved. */
  lemma {:induction false} ClockRunsOut(s: State)
    requires Valid(s) && s.started && s.exit == Staying
    ensures var t := Run(s, Ticking(s.countdown));
      t.exit == ToFail && t.history == s.history && t.countdown == 0 && !t.alarmPlaying
    decreases s.countdown
  {
    var u := Next(s, Tick);
    TickStep(s);
    NextValid(s, Tick);
    assert Ticking(s.countdown)[1..] == Ticking(s.countdown - 1);
    if s.countdown > 1 {
      ClockRunsOut(u);
    }
  }

  /** The countdown display: `00:` and the seconds padded to two digits. */
  function ClockText(s: State): string {
    "00:" + JsText.TwoDigits(s.countdown)
  }

  /** On every reachable state the display shows exactly two digits that
      read back as the remaining seconds. */
  lemma ClockTextExact(s: State)
    requires Valid(s)
    ensures |ClockText(s)| == 5 && ClockText(s)[..3] == "00:"
    ensures JsText.IsDigits(ClockText(s)[3..])
    ensures JsText.DigitsValue(ClockText(s)[3..]) == s.countdown
  {
    JsText.TwoDigitsRoundTrip(s.countdown);
    assert ClockText(s)[3..] == JsText.TwoDigits(s.countdown);
  }
}

=== FILE: result_card.dfy ===
/** The result card component (components/ResultCard.tsx): the rarity label
    and its colour, the headline texts, and the trait chips. */
module ResultCard {
  import opened Domain

  const RarityColors: map<string, string> := map[
    "Common" := "text-gray-400",
    "Rare" := "text-blue-400",
    "Epic" := "text-purple-400",
    "Legendary" := "text-yellow-300"
  ]

  const DefaultColor: string := "text-gray-400"

  /** rarityColor[rarity] || 'text-gray-400': a listed rarity gets its own
      colour, any other string the colour of Common. */
  function ColorClass(rarity: string): (c: string)
    ensures rarity in RarityColors ==> c == RarityColors[rarity]
    ensures rarity !in RarityColors ==> c == RarityColors["Common"]
  {
    if rarity in RarityColors && RarityColors[rarity] != "" then RarityColors[rarity] else DefaultColor
  }

  /** The four tiers are told apart: no two share a colour. */
  lemma ColorsDistinct()
    ensures forall a, b :: a in RarityColors && b in RarityColors && a != b ==> RarityColors[a] != RarityColors[b]
  {
  }

  /** The badge chip, then one `#tag` chip per tag, in list order. */
  function Chips(badge: string, tags: seq<string>): (c: seq<string>)
    ensures |c| == |tags| + 1 && c[0] == badge
    ensures forall i :: 0 <= i < |tags| ==> c[i + 1] == "#" + tags[i]
  {
    [badge] + seq(|tags|, i requires 0 <= i < |tags| => "#" + tags[i])
  }

  /** Dropping the `#` from the tag chips gives back the tag list. */
  lemma ChipsKeepTags(badge: string, tags: seq<string>)
    ensures var c := Chips(badge, tags);
      seq(|tags|, i requires 0 <= i < |tags| => c[i + 1][1..]) == tags
  {
    var c := Chips(badge, tags);
    forall i | 0 <= i < |tags|
      ensures c[i + 1][1..] == tags[i]
    {
      assert c[i + 1] == "#" + tags[i];
    }
  }

  /** What the card shows. The rarity label is translated with the raw
      rarity string as its message key. */
  datatype CardView = CardView(
    labelKey: string,
    labelClass: string,
    heading: string,
    summary: string,
    quote: string,
    advice: string,
    chips: seq<string>)

  function Render(r: Payload): (v: CardView)
    ensures v.labelKey == r.rarity && v.heading == r.typeName
    ensures r.rarity in RarityColors ==> v.labelClass == RarityColors[r.rarity]
    ensures r.rarity !in RarityColors ==> v.labelClass == RarityColors["Common"]
    ensures |v.chips| == |r.tags| + 1 && v.chips[0] == r.badge
    ensures forall i :: 0 <= i < |r.tags| ==> v.chips[i + 1] == "#" + r.tags[i]
  {
    CardView(r.rarity, ColorClass(r.rarity), r.typeName, r.summary, r.quote, r.advice,
             Chips(r.badge, r.tags))
  }
}

=== FILE: result_route.dfy ===
/** POST /api/generate-result (app/api/generate-result/route.ts): render the
    answer history as a transcript, ask the language model for a result, strip
    code fences, trim, parse, and answer with the parsed value or with a canned
    result and status 500. Also the rule the prompt states for matching the
    rarity label to the percentile, which no code enforces. */
module ResultRoute {
  import opened Wrappers
  import opened Domain
  import opened JsText

  // ------------------------------------------------------------- transcript

  /** One history entry as the prompt shows it: its 1-based number, the
      question, and the chosen option. The options themselves are not shown. */
  function Block(i: nat, e: Entry): (r: string)
    ensures |r| > |NatToString(i + 1)| + |e.question| + |e.selected|
    ensures r[0] == 'Q' && r[1..1 + |NatToString(i + 1)|] == NatToString(i + 1)
    ensures IsInfix(e.question, r)
    ensures r[|r| - |e.selected|..] == e.selected
  {
    BlockParts("Q", NatToString(i + 1), ": ", e.question, "\n(선택) A: ", e.selected);
    "Q" + NatToString(i + 1) + ": " + e.question + "\n(선택) A: " + e.selected
  }

  /** Where each of six concatenated pieces sits in the whole. */
  lemma BlockParts(q: string, n: string, colon: string, question: string, mark: string, sel: string)
    requires |q| == 1 && |colon| > 0
    ensures var r := q + n + colon + question + mark + sel;
      && |r| > |n| + |question| + |sel|
      && r[0] == q[0] && r[1..1 + |n|] == n
      && IsInfix(question, r)
      && r[|r| - |sel|..] == sel
  {
    var r := q + n + colon + question + mark + sel;
    assert r[1 + |n| + |colon|..1 + |n| + |colon| + |question|] == question;
  }

  /** The number after `Q` reads back as the entry's 1-based position. */
  lemma BlockNumbered(i: nat, e: Entry)
    ensures DigitsValue(Block(i, e)[1..1 + |NatToString(i + 1)|]) == i + 1
  {
    NatToStringRoundTrip(i + 1);
  }

  /** The summed lengths of the parts. */
  function TotalLength(parts: seq<string>): nat {
    if |parts| == 0 then 0 else TotalLength(parts[..|parts| - 1]) + |parts[|parts| - 1]|
  }

  /** Array.prototype.join: the parts in order, one separator between each
      neighbouring pair. */
  function Join(parts: seq<string>, sep: string): (r: string)
    ensures |parts| == 0 ==> r == ""
    ensures |parts| > 0 ==> |r| == TotalLength(parts) + (|parts| - 1) * |sep|
    ensures |parts| > 0 ==> StartsWith(r, parts[0])
    ensures |parts| > 0 ==> r[|r| - |parts[|parts| - 1]|..] == parts[|parts| - 1]
  {
    if |parts| == 0 then ""
    else if |parts| == 1 then parts[0]
    else
      var n := |parts|;
      var front := Join(parts[..n - 1], sep);
      assert parts[..n - 1][0] == parts[0];
      JoinLast(parts[0], front, sep, parts[n - 1], TotalLength(parts[..n - 1]), n);
      front + sep + parts[n - 1]
  }

  /** Adding a separator and a last part to a join of n - 1 parts. */
  lemma JoinLast(first: string, front: string, sep: string, last: string, total: nat, n: nat)
    requires n >= 2 && |front| == total + (n - 2) * |sep| && StartsWith(front, first)
    ensures var r := front + sep + last;
      && |r| == total + |last| + (n - 1) * |sep|
      && StartsWith(r, first)
      && r[|r| - |last|..] == last
  {
    var r := front + sep + last;
    assert (n - 1) * |sep| == (n - 2) * |sep| + |sep|;
    assert r[..|first|] == front[..|first|];
  }

  const BlockSeparator: string := "\n\n"

  /** history.map(...): one block per entry, numbered by position. */
  function Blocks(h: seq<Entry>): (r: seq<string>)
    ensures |r| == |h|
    ensures forall i :: 0 <= i < |h| ==> r[i] == Block(i, h[i])
  {
    seq(|h|, i requires 0 <= i < |h| => Block(i, h[i]))
  }

  /** history.map(...).join('\n\n'): empty exactly for an empty history,
      and otherwise opening with question 1. */
  function Transcript(h: seq<Entry>): (r: string)
    ensures r == "" <==> |h| == 0
    ensures |h| > 0 ==> StartsWith(r, Block(0, h[0]))
  {
    var r := Join(Blocks(h), BlockSeparator);
    if |h| > 0 then
      assert |Block(0, h[0])| > 0;
      r
    else r
  }

  /** An empty history renders as the empty string; a single entry is Q1. */
  lemma TranscriptSmall(e: Entry)
    ensures Transcript([]) == ""
    ensures Transcript([e]) == "Q1: " + e.question + "\n(선택) A: " + e.selected
  {
    assert NatToString(1) == "1";
  }

  /** Appending an entry appends its block, numbered after the earlier ones,
      after a blank line: the transcript lists the history in order. */
  lemma TranscriptAppend(h: seq<Entry>, e: Entry)
    requires |h| > 0
    ensures Transcript(h + [e]) == Transcript(h) + BlockSeparator + Block(|h|, e)
  {
    var ps := Blocks(h + [e]);
    assert ps[..|h|] == Blocks(h);
    assert ps[|h|] == Block(|h|, e);
    assert Join(ps, BlockSeparator) == Join(ps[..|h|], BlockSeparator) + BlockSeparator + ps[|h|];
  }

  /** Only the question and the chosen option of each entry reach the
      transcript: histories that differ in their option lists render alike. */
  lemma TranscriptIgnoresOptions(h: seq<Entry>, g: seq<Entry>)
    requires |h| == |g|
    requires forall i :: 0 <= i < |h| ==> h[i].question == g[i].question && h[i].selected == g[i].selected
    ensures Transcript(h) == Transcript(g)
  {
    assert Blocks(h) == Blocks(g);
  }

  // ------------------------------------------------------------ fence strip

  /** Three backticks start at position k of s. */
  predicate FenceAt(s: string, k: nat) {
    k + 3 <= |s| && s[k] == '`' && s[k + 1] == '`' && s[k + 2] == '`'
  }

  /** s starts with ```json. */
  predicate JsonFenceFirst(s: string) {
    FenceAt(s, 0) && 7 <= |s| && s[3] == 'j' && s[4] == 's' && s[5] == 'o' && s[6] == 'n'
  }

  /** text.replace(/```json|```/g, ''): scanning left to right, an occurrence
      of ```json is removed whole, else one of ```, else the character is kept. */
  function StripFences(s: string): (r: string)
    ensures |r| <= |s|
    decreases |s|
  {
    if JsonFenceFirst(s) then StripFences(s[7..])
    else if FenceAt(s, 0) then StripFences(s[3..])
    else if |s| == 0 then []
    else [s[0]] + StripFences(s[1..])
  }

  /** What the route hands to JSON.parse: a contiguous piece of the stripped
      text with no white space at either end. */
  function Clean(raw: string): (r: string)
    ensures IsInfix(r, StripFences(raw))
    ensures r == [] || (!IsSpace(r[0]) && !IsSpace(r[|r| - 1]))
    ensures exists lo :: TrimmedAt(StripFences(raw), lo, r)
    ensures |r| <= |raw|
  {
    Trim(StripFences(raw))
  }

  /** A kept backtick is never followed by two more backticks in the output. */
  lemma NoDoubleTickAfterKept(s: string)
    requires |s| > 0 && s[0] == '`' && !FenceAt(s, 0)
    ensures var r := StripFences(s[1..]);
      !(|r| >= 2 && r[0] == '`' && r[1] == '`')
  {
    var t := s[1..];
    if |t| > 0 && t[0] == '`' && |t| > 1 {
      var u := t[1..];
      assert u[0] == s[2] != '`';
      assert !FenceAt(t, 0) && !FenceAt(u, 0);
      assert StripFences(u)[0] == u[0];
    }
  }

  /** The strip leaves no ``` behind: removal never glues backticks into a
      new fence. */
  lemma {:induction false} NoFenceLeft(s: string)
    ensures forall k: nat :: !FenceAt(StripFences(s), k)
    decreases |s|
  {
    if JsonFenceFirst(s) {
      NoFenceLeft(s[7..]);
    } else if FenceAt(s, 0) {
      NoFenceLeft(s[3..]);
    } else if |s| > 0 {
      NoFenceLeft(s[1..]);
      var r' := StripFences(s[1..]);
      var r := [s[0]] + r';
      assert StripFences(s) == r;
      if s[0] == '`' {
        NoDoubleTickAfterKept(s);
      }
      forall k: nat
        ensures !FenceAt(r, k)
      {
        if k > 0 {
          assert FenceAt(r, k) ==> FenceAt(r', k - 1);
        }
      }
    }
  }

  /** Text without backticks passes through the strip unchanged, and so does
      a backtick-free prefix of any text. */
  lemma {:induction false} StripPlainPrefix(a: string, b: string)
    requires '`' !in a
    ensures StripFences(a + b) == a + StripFences(b)
    decreases |a|
  {
    if |a| == 0 {
      assert a + b == b;
    } else {
      assert '`' !in a[1..] by {
        forall k | 0 <= k < |a| - 1 ensures a[1..][k] != '`' { assert a[1..][k] == a[k + 1]; }
      }
      StripPlainPrefix(a[1..], b);
      StripPlainStep(a, b);
    }
  }

  /** One step of StripPlainPrefix: a kept first character goes in front. */
  lemma StripPlainStep(a: string, b: string)
    requires |a| > 0 && a[0] != '`'
    requires StripFences(a[1..] + b) == a[1..] + StripFences(b)
    ensures StripFences(a + b) == a + StripFences(b)
  {
    var s := a + b;
    assert s[0] == a[0] && s[1..] == a[1..] + b;
    assert !FenceAt(s, 0);
    assert [a[0]] + a[1..] == a;
  }

  /** A reply wrapped in a ```json fence comes out as its body. */
  lemma StripWrapped(body: string)
    requires '`' !in body
    ensures StripFences("```json" + body + "```") == body
  {
    var s := "```json" + body + "```";
    assert JsonFenceFirst(s);
    assert s[7..] == body + "```";
    StripPlainPrefix(body, "```");
    assert StripFences("```") == [];
  }

  /** A bare ``` after backtick-free text is removed, and the scan goes on
      right after it: everything that follows is stripped in its turn. */
  lemma BareFenceRemoved(a: string, b: string)
    requires '`' !in a
    requires !(|b| >= 4 && b[0] == 'j' && b[1] == 's' && b[2] == 'o' && b[3] == 'n')
    ensures StripFences(a + "```" + b) == a + StripFences(b)
  {
    var s := "```" + b;
    assert FenceAt(s, 0) && !JsonFenceFirst(s);
    assert s[3..] == b;
    assert a + "```" + b == a + s;
    StripPlainPrefix(a, s);
  }

  /** A ```json after backtick-free text is removed as one match. */
  lemma JsonFenceRemoved(a: string, b: string)
    requires '`' !in a
    ensures StripFences(a + "```json" + b) == a + StripFences(b)
  {
    var s := "```json" + b;
    assert JsonFenceFirst(s);
    assert s[7..] == b;
    assert a + "```json" + b == a + s;
    StripPlainPrefix(a, s);
  }

  /** One or two backticks that are not followed by a third are kept. */
  lemma ShortTicksKept(ticks: string, b: string)
    requires ticks == "`" || ticks == "``"
    requires b == [] || b[0] != '`'
    ensures StripFences(ticks + b) == ticks + StripFences(b)
  {
    var s := ticks + b;
    assert s[0] == '`' && !FenceAt(s, 0);
    assert s[1..] == ticks[1..] + b;
    if ticks == "``" {
      var t := s[1..];
      assert t[0] == '`' && !FenceAt(t, 0);
      assert t[1..] == b;
    } else {
      assert s[1..] == b;
    }
  }

  /** The bare-fence case on a concrete reply: a fence without the json tag
      leaves the body between the fences. */
  lemma BareFenceExample()
    ensures StripFences("```\n{}\n```") == "\n{}\n"
  {
    BareFenceRemoved([], "\n{}\n```");
    BareFenceRemoved("\n{}\n", []);
    assert "```\n{}\n```" == [] + "```" + "\n{}\n```";
    assert "\n{}\n```" == "\n{}\n" + "```" + [];
  }

  /** Clean text (no backticks, no surrounding white space) reaches the
      parser exactly as the model wrote it. */
  lemma CleanPassesThrough(s: string)
    requires '`' !in s
    requires s == [] || (!IsSpace(s[0]) && !IsSpace(s[|s| - 1]))
    ensures Clean(s) == s
  {
    StripPlainPrefix(s, []);
    assert s + [] == s;
    TrimKeepsTrimmed(s);
  }

  // ----------------------------------------------------------------- rarity

  datatype Rarity = Common | Rare | Epic | Legendary {

    /** The label as the result record spells it. */
    function Name(): string {
      match this
      case Common => "Common"
      case Rare => "Rare"
      case Epic => "Epic"
      case Legendary => "Legendary"
    }

    /** 0 for the most common tier up to 3 for the rarest. */
    function Rank(): nat {
      match this
      case Common => 0
      case Rare => 1
      case Epic => 2
      case Legendary => 3
    }
  }

  /** The prompt's rule: Common above 40, Rare in (15, 40], Epic in (5, 15],
      Legendary at 5 and below. */
  function RarityOf(p: int): (r: Rarity)
    ensures r == Common <==> p > 40
    ensures r == Rare <==> 15 < p <= 40
    ensures r == Epic <==> 5 < p <= 15
    ensures r == Legendary <==> p <= 5
  {
    if p > 40 then Common else if p > 15 then Rare else if p > 5 then Epic else Legendary
  }

  /** Reads a label back; anything but the four names is no rarity. */
  function ParseRarity(s: string): (r: Option<Rarity>)
    ensures r.Some? ==> r.value.Name() == s
  {
    if s == "Common" then Some(Common)
    else if s == "Rare" then Some(Rare)
    else if s == "Epic" then Some(Epic)
    else if s == "Legendary" then Some(Legendary)
    else None
  }

  lemma ParseName(r: Rarity)
    ensures ParseRarity(r.Name()) == Some(r)
  {
  }

  /** A lower percentile never gets a more common tier. */
  lemma RarerBelow(p: int, q: int)
    requires p <= q
    ensures RarityOf(p).Rank() >= RarityOf(q).Rank()
  {
  }

  /** A result whose label agrees with its percentile. */
  predicate FollowsRule(d: Payload) {
    ParseRarity(d.rarity) == Some(RarityOf(d.percentile))
  }

  /** The label and percentile of each worked example in the prompt. */
  datatype Example = Example(rarity: string, percentile: int)

  const PromptExamples: seq<Example> := [
    Example("Common", 68), Example("Rare", 25), Example("Common", 85)
  ]

  /** Every worked example obeys the rule it illustrates. */
  lemma ExamplesFollowRule()
    ensures forall x :: x in PromptExamples ==> ParseRarity(x.rarity) == Some(RarityOf(x.percentile))
  {
  }

  /** The prompt's prose also says Common takes percentiles 40 to 99 and
      Legendary 1 to 4; the rule puts 40 in Rare and 5 in Legendary. */
  lemma ProseRangesDisagreeAtEdges()
    ensures RarityOf(40) == Rare && RarityOf(41) == Common
    ensures RarityOf(5) == Legendary && RarityOf(6) == Epic
  {
  }

  // ---------------------------------------------------------------- handler

  /** The canned result of the catch branch. */
  const FallbackPayload: Payload := Payload(
    "🌀 예측불가 혼돈형",
    "당신의 선택은 AI마저 혼란에 빠뜨렸습니다! 기존의 유형으로는 도저히 분석할 수 없는 미지의 존재입니다.",
    "가끔은 예측 가능한 선택을 해보는 건 어떨까요? 물론, 그럴 리 없겠지만요.",
    "분석? 그게 뭔데. 난 내 길을 간다.",
    "미지의 존재",
    "Epic",
    ["혼돈", "예측불가", "유니크"],
    10)

  /** The route's response. `Unhandled` is an error raised before the try
      block (an unreadable body, a history that is not a list): the framework
      answers it, and it is not the canned result. */
  datatype Reply = Generated(data: Payload) | Fallback(data: Payload) | Unhandled {
    function Status(): int {
      if Generated? then 200 else 500
    }
  }

  /** The handler. `history` is the body's history field, None when reading
      it fails; `generate` is the model call on the prompt built around the
      transcript, None when it throws; `parse` is JSON.parse at the result type. */
  function Post(history: Option<seq<Entry>>, generate: string -> Option<string>,
                parse: string -> Option<Payload>): (r: Reply)
    ensures r.Unhandled? <==> history.None?
    ensures r.Fallback? ==> r.data == FallbackPayload
    ensures history.Some? ==>
      var out := generate(Transcript(history.value));
      (r.Generated? <==> out.Some? && parse(Clean(out.value)).Some?)
    ensures r.Generated? ==> Some(r.data) == parse(Clean(generate(Transcript(history.value)).value))
  {
    match history
    case None => Unhandled
    case Some(h) =>
      match generate(Transcript(h))
      case None => Fallback(FallbackPayload)
      case Some(raw) =>
        match parse(Clean(raw))
        case None => Fallback(FallbackPayload)
        case Some(d) => Generated(d)
  }

  /** The canned result obeys the rarity rule and is sent with status 500. */
  lemma FallbackFollowsRule()
    ensures FollowsRule(FallbackPayload)
    ensures Fallback(FallbackPayload).Status() == 500
  {
  }

  /** Nothing checks the parsed result: a Legendary label at percentile 90 is
      returned as it is, with status 200. */
  lemma RarityUnchecked(h: seq<Entry>)
    ensures var odd := FallbackPayload.(rarity := "Legendary", percentile := 90);
      && !FollowsRule(odd)
      && Post(Some(h), _ => Some("{}"), _ => Some(odd)) == Generated(odd)
  {
  }

  /** Whatever record the parser yields is sent with status 200: an empty
      type, no tags, any rarity label and any percentile all pass. */
  lemma AnyResultForwarded(h: seq<Entry>, generate: string -> Option<string>,
                           parse: string -> Option<Payload>, raw: string, d: Payload)
    requires generate(Transcript(h)) == Some(raw) && parse(Clean(raw)) == Some(d)
    ensures Post(Some(h), generate, parse) == Generated(d)
    ensures Post(Some(h), generate, parse).Status() == 200
  {
  }
}

=== FILE: result_view.dfy ===
/** The presentation side of the result screen (app/result/page.tsx): the
    background theme and border chosen from the rarity, the "top X%" figure,
    and the file name of the downloaded card image. */
module ResultView {
  import opened Domain
  import opened JsText
  import ResultCard

  const RarityStyles: map<string, string> := map[
    "Common" := "bg-gray-900",
    "Rare" := "bg-gradient-to-br from-gray-900 to-blue-900/60",
    "Epic" := "bg-gradient-to-br from-gray-900 to-purple-900/60",
    "Legendary" := "bg-gradient-to-br from-gray-900 to-yellow-900/50"
  ]

  const DefaultStyle: string := "bg-gray-900"

  /** rarityStyles[rarity] || "bg-gray-900": a listed rarity gets its theme,
      any other string the theme of Common. */
  function ThemeClass(rarity: string): (c: string)
    ensures rarity in RarityStyles ==> c == RarityStyles[rarity]
    ensures rarity !in RarityStyles ==> c == RarityStyles["Common"]
  {
    if rarity in RarityStyles && RarityStyles[rarity] != "" then RarityStyles[rarity] else DefaultStyle
  }

  /** The page themes and the card colours are keyed by the same four names. */
  lemma RarityTablesShareKeys()
    ensures RarityStyles.Keys == ResultCard.RarityColors.Keys
    ensures |RarityStyles.Keys| == 4
  {
  }

  const GlowBorder: string := "border-glow-legendary-plus"
  const PlainBorder: string := "border-gray-700"

  /** Only Legendary gets the glowing border. */
  function BorderClass(rarity: string): (c: string)
    ensures c == GlowBorder <==> rarity == "Legendary"
    ensures c == PlainBorder <==> rarity != "Legendary"
  {
    if rarity == "Legendary" then GlowBorder else PlainBorder
  }

  /** The "top X%" figure shown under the card. */
  function TopFigure(percentile: int): (t: int)
    ensures 1 <= percentile <= 99 ==> 1 <= t <= 99
    ensures percentile <= 5 ==> t >= 95
  {
    100 - percentile
  }

  /** The framing loses nothing: applied twice it gives the percentile back. */
  lemma TopFigureInvolution(percentile: int)
    ensures TopFigure(TopFigure(percentile)) == percentile
  {
  }

  /** YYYYMMDD from getFullYear, getMonth (0-based) and getDate; only month
      and day are padded. */
  function Timestamp(year: nat, monthIndex: nat, day: nat): string {
    NatToString(year) + TwoDigits(monthIndex + 1) + TwoDigits(day)
  }

  /** For four-digit years the stamp has eight digits that read back as the
      year, the 1-based month and the day. */
  lemma TimestampRoundTrip(year: nat, monthIndex: nat, day: nat)
    requires 1000 <= year <= 9999 && monthIndex < 12 && 1 <= day <= 31
    ensures var ts := Timestamp(year, monthIndex, day);
      && |ts| == 8 && IsDigits(ts)
      && DigitsValue(ts[..4]) == year
      && DigitsValue(ts[4..6]) == monthIndex + 1
      && DigitsValue(ts[6..]) == day
  {
    NatToStringRoundTrip(year);
    TwoDigitsRoundTrip(monthIndex + 1);
    TwoDigitsRoundTrip(day);
    StampReadsBack(NatToString(year), TwoDigits(monthIndex + 1), TwoDigits(day),
                   year, monthIndex + 1, day);
  }

  /** Four, two and two digits, concatenated, read back part by part. */
  lemma StampReadsBack(y: string, m: string, d: string, year: nat, month: nat, day: nat)
    requires |y| == 4 && |m| == 2 && |d| == 2
    requires IsDigits(y) && IsDigits(m) && IsDigits(d)
    requires DigitsValue(y) == year && DigitsValue(m) == month && DigitsValue(d) == day
    ensures var ts := y + m + d;
      && |ts| == 8 && IsDigits(ts)
      && DigitsValue(ts[..4]) == year
      && DigitsValue(ts[4..6]) == month
      && DigitsValue(ts[6..]) == day
  {
    StampParts(y, m, d);
  }

  /** Splitting a four-two-two digit concatenation back into its parts. */
  lemma StampParts(y: string, m: string, d: string)
    requires |y| == 4 && |m| == 2 && |d| == 2
    requires IsDigits(y) && IsDigits(m) && IsDigits(d)
    ensures var ts := y + m + d;
      |ts| == 8 && IsDigits(ts) && ts[..4] == y && ts[4..6] == m && ts[6..] == d
  {
    var ts := y + m + d;
    forall k | 0 <= k < |ts|
      ensures '0' <= ts[k] <= '9'
    {
      if k < 4 { assert ts[k] == y[k]; }
      else if k < 6 { assert ts[k] == m[k - 4]; }
      else { assert ts[k] == d[k - 6]; }
    }
    assert ts[..4] == y;
    assert ts[4..6] == m;
    assert ts[6..] == d;
  }

  const NamePrefix: string := "내_멸망유형_"
  const NameDefault: string := "결과"

  /** type.replace(/\s/g, '_') || '결과'. */
  function NameLabel(typeName: string): (r: string)
    ensures r != "" && forall k :: 0 <= k < |r| ==> !IsSpace(r[k])
    ensures typeName == "" ==> r == NameDefault
    ensures typeName != "" ==> |r| == |typeName|
    ensures typeName != "" ==> forall k :: 0 <= k < |r| ==> r[k] == (if IsSpace(typeName[k]) then '_' else typeName[k])
  {
    ReplaceSpacesClears(typeName, '_');
    var t := ReplaceSpaces(typeName, '_');
    if t == "" then
      assert forall k :: 0 <= k < |NameDefault| ==> !IsSpace(NameDefault[k]);
      NameDefault
    else t
  }

  /** The download file name. */
  function DownloadName(typeName: string, year: nat, monthIndex: nat, day: nat): string {
    NamePrefix + NameLabel(typeName) + "-" + Timestamp(year, monthIndex, day) + ".png"
  }

  /** The label in the file name has no white space; an empty type falls back
      to the default label, any other type keeps its length with white space
      turned into `_`. */
  lemma DownloadNameShape(typeName: string, year: nat, monthIndex: nat, day: nat)
    ensures var shown := NameLabel(typeName);
      && DownloadName(typeName, year, monthIndex, day)
           == NamePrefix + shown + "-" + Timestamp(year, monthIndex, day) + ".png"
      && (forall k :: 0 <= k < |shown| ==> !IsSpace(shown[k]))
      && (typeName == "" ==> shown == NameDefault)
      && (typeName != "" ==> shown == ReplaceSpaces(typeName, '_') && |shown| == |typeName|)
  {
    ReplaceSpacesClears(typeName, '_');
    var shown := NameLabel(typeName);
    if typeName == "" {
      assert shown == NameDefault;
      assert forall k :: 0 <= k < |NameDefault| ==> !IsSpace(NameDefault[k]);
    }
  }

  /** What the result screen shows around the card. */
  datatype PageView = PageView(theme: string, border: string, topFigure: int, card: ResultCard.CardView)

  function Render(r: Payload): (v: PageView)
    ensures r.rarity in RarityStyles ==> v.theme == RarityStyles[r.rarity]
    ensures r.rarity !in RarityStyles ==> v.theme == RarityStyles["Common"]
    ensures v.border == GlowBorder <==> r.rarity == "Legendary"
    ensures 1 <= r.percentile <= 99 ==> 1 <= v.topFigure <= 99
    ensures TopFigure(v.topFigure) == r.percentile
    ensures v.card == ResultCard.Render(r)
  {
    PageView(ThemeClass(r.rarity), BorderClass(r.rarity), TopFigure(r.percentile), ResultCard.Render(r))
  }
}

=== FILE: session.dfy ===
/** Whole sessions across screens: the quiz hands its history to the loading
    screen, the loading screen hands the result to the result screen, and the
    locale chosen by the middleware meets the i18n configuration and the
    layout. */
module Session {
  import opened Wrappers
  import opened Domain
  import Quiz
  import Handoff
  import QuestionsRoute
  import ResultRoute
  import ResultView
  import Middleware
  import I18n
  import Layout

  /** A completed quiz reaches the loading screen with its history: the
      stored copy is read once, removed, and sent exactly as answered. */
  lemma HistoryReachesRequest(s: Quiz.State, st: Handoff.Storage, json: Handoff.Json)
    requires Quiz.Valid(s) && s.exit.ToLoading?
    requires Handoff.Faithful(json.history)
    ensures var t := Handoff.LoadingStep(
        Handoff.MountLoading(Handoff.SaveHistory(st, json.history, s.exit)), json, Handoff.Effect);
      && t.request == Some(s.history)
      && t.phase == Handoff.Waiting
      && Handoff.HistoryKey !in t.storage
  {
    var st' := Handoff.SaveHistory(st, json.history, s.exit);
    assert st'[Handoff.HistoryKey] == json.history.encode(s.exit.saved);
    assert json.history.encode(s.exit.saved) != "";
    Handoff.HistoryReadOnce(st', json);
  }

  /** The result the route answered with, once the join resolves, is what the
      result screen shows, and it is gone from storage afterwards. */
  lemma ResultReachesScreen(p: Handoff.LoadingPage, json: Handoff.Json, status: int, body: string, d: Payload)
    requires Handoff.AwaitingApi(p) && !p.waited
    requires Handoff.Faithful(json.result)
    requires Handoff.IsOk(status) && json.result.decode(body) == Some(d)
    ensures var done := Handoff.LoadingRun(p, json, [Handoff.Reply(status, body), Handoff.MinWaitElapsed]);
      var shown := Handoff.LoadResult(Handoff.OpenResult(done.storage), json.result);
      && done.nav == Some(ResultScreen)
      && shown.result == Some(d) && shown.nav == None
      && Handoff.ResultKey !in shown.storage
  {
    Handoff.JoinEitherOrder(p, json, status, body, d);
    assert json.result.encode(d) != "";
  }

  /** The result route's canned answer never reaches the screen: it comes
      with status 500, so the loading screen rejects it and stores nothing. */
  lemma ResultFallbackNeverShown(p: Handoff.LoadingPage, json: Handoff.Json,
                                 h: seq<Entry>, generate: string -> Option<string>,
                                 parse: string -> Option<Payload>, body: string)
    requires Handoff.AwaitingApi(p)
    requires ResultRoute.Post(Some(h), generate, parse).Fallback?
    ensures var r := ResultRoute.Post(Some(h), generate, parse);
      var t := Handoff.LoadingStep(p, json, Handoff.Reply(r.Status(), body));
      t.phase == Handoff.Failed && t.nav == Some(Home) && t.storage == p.storage
  {
    Handoff.NonOkRejects(p, json, 500, body);
  }

  /** The quiz screen never looks at the status of the question request: the
      canned questions are played like any others, and two answers finish. */
  lemma QuestionFallbackIsPlayed(parse: string -> Option<seq<Question>>)
    ensures var r := QuestionsRoute.Post(None, parse);
      var s := Quiz.Next(Quiz.Next(Quiz.Init(), Quiz.QuestionsLoaded(r.questions)), Quiz.Start);
      var t := Quiz.Run(s, Quiz.Selects(["내 탓을 한다", "오히려 좋아"]));
      r.status == 500 && s.started && t.exit.ToLoading? && |t.exit.saved| == 2
  {
    var r := QuestionsRoute.Post(None, parse);
    Quiz.InitValid();
    var s1 := Quiz.Next(Quiz.Init(), Quiz.QuestionsLoaded(r.questions));
    Quiz.NextValid(Quiz.Init(), Quiz.QuestionsLoaded(r.questions));
    var s := Quiz.Next(s1, Quiz.Start);
    Quiz.NextValid(s1, Quiz.Start);
    Quiz.CompleteSession(s, ["내 탓을 한다", "오히려 좋아"]);
  }

  /** Running out of time before answering: /fail is reached, nothing is
      written to storage, and a later visit to the loading screen (with no
      earlier history stored) goes back to the start without a request. */
  lemma TimeoutLeavesNothing(qs: seq<Question>, st: Handoff.Storage, json: Handoff.Json)
    requires |qs| > 0
    requires Handoff.HistoryKey !in st
    ensures var s := Quiz.Next(Quiz.Next(Quiz.Init(), Quiz.QuestionsLoaded(qs)), Quiz.Start);
      var t := Quiz.Run(s, Quiz.Ticking(Quiz.CountdownStart));
      var st' := Handoff.SaveHistory(st, json.history, t.exit);
      var l := Handoff.LoadingStep(Handoff.MountLoading(st'), json, Handoff.Effect);
      && t.exit == Quiz.ToFail && t.history == []
      && st' == st
      && l.nav == Some(Home) && l.request == None
  {
    Quiz.InitValid();
    var s1 := Quiz.Next(Quiz.Init(), Quiz.QuestionsLoaded(qs));
    Quiz.NextValid(Quiz.Init(), Quiz.QuestionsLoaded(qs));
    var s := Quiz.Next(s1, Quiz.Start);
    Quiz.NextValid(s1, Quiz.Start);
    Quiz.ClockRunsOut(s);
    Handoff.MissingHistoryRedirects(st, json);
  }

  /** A Rare result at percentile 25 is framed as "top 75%" with the Rare theme. */
  lemma RareResultView(d: Payload)
    requires d.rarity == "Rare" && d.percentile == 25
    ensures ResultView.Render(d).topFigure == 75
    ensures ResultView.Render(d).theme == ResultView.RarityStyles["Rare"]
    ensures ResultRoute.FollowsRule(d)
  {
  }

  // ----------------------------------------------------------------- locale

  /** The two locale lists disagree on Chinese: the middleware can settle on
      'zh', and the i18n configuration's fallback maps 'zh' to 'en'. */
  lemma ChineseLostInI18n()
    ensures Middleware.DetectLocale(Some("zh"), Some("en")) == Some("zh")
    ensures I18n.SafeLocale(Some(Middleware.DetectLocale(Some("zh"), Some("en")).value)) == "en"
  {
  }

  /** With Chinese spelled alike in both lists, whatever locale the
      middleware settles on survives the i18n fallback unchanged. */
  lemma AlignedKeepsResolvedLocale(cookie: Option<string>, negotiated: Option<string>)
    requires negotiated.Some? ==> negotiated.value in Middleware.SupportedLocales
    requires Middleware.DetectLocale(cookie, negotiated).Some?
    ensures var l := Middleware.DetectLocale(cookie, negotiated).value;
      I18n.AlignedSafeLocale(Some(l)) == l
  {
    assert Middleware.SupportedLocales == I18n.AlignedLocales;
  }

  /** Every locale the middleware can settle on has its own metadata entry,
      and the layout renders it as the page language when it reads the
      cookie the middleware wrote on that same request (`Some(l)`). */
  lemma ResolvedLocaleRendered<M>(cookie: Option<string>, negotiated: Option<string>, load: string -> Option<M>)
    requires negotiated.Some? ==> negotiated.value in Middleware.SupportedLocales
    requires Middleware.DetectLocale(cookie, negotiated).Some?
    ensures var l := Middleware.DetectLocale(cookie, negotiated).value;
      l in Layout.MetadataLocales && Layout.RootLayout(Some(l), load).lang == l
  {
    var l := Middleware.DetectLocale(cookie, negotiated).value;
    assert l != "";
    assert forall x :: x in Middleware.SupportedLocales ==> x in Layout.MetadataLocales;
  }
}

=== FILE: wrappers.dfy ===
/** The optional-value type used across the model for absent keys, failed
    parses and calls into code outside the model. */
module Wrappers {
  datatype Option<+T> = None | Some(value: T)
}
